=== FILE: README.md ===
# Video task lifecycle controller — Dafny model

This project models the task-lifecycle core of the browser client in
`html/script.js`. The client submits video-generation jobs to a remote API,
keeps a newest-first list of tasks, polls each unfinished task every five
seconds, and folds the replies into the list. The model treats that logic as
a pure state machine over `State(tasks: seq<Task>, pollers: set<string>)`.
Network replies, the random routing key and the persisted task list are
inputs to it.

Modules, leaves first:

- `Wrappers` (`wrappers.dfy`): `Option`.
- `Json` (`json.dfy`): the JavaScript values a reply can hold. It defines
  truthiness, property access (`Get`) and `a || b` (`Or`).
- `ErrorMessage` (`error_message.dfy`): `extractErrorMessage` and its
  precedence.
- `Response` (`response.dfy`): `parseResponse`.
- `ImageValidation` (`image_validation.dfy`): `validateImageFile` and the
  four-byte signature check of `validateImageFileHeader`.
- `Labels` (`labels.dfy`): `getStatusText` and `getSizeText`.
- `Text` (`text.dfy`): `String.prototype.trim`, which is applied to the prompt.
- `TaskStore` (`task_store.dfy`): `addTask`, `updateTask` (`Object.assign`
  into the first task with the id), and the filter step of `removeTask`.
- `Pollers` (`pollers.dfy`): `startPolling` and `stopPolling` over a set of
  ids.
- `Lifecycle` (`lifecycle.dfy`): admission and submission (`generateVideo`),
  poll reconciliation (`queryTask`), confirmed deletion and refresh-all. It
  also defines the store invariant `Tracked`: every registered poller belongs
  to a stored task. `GenerateVideo`, `FinishSubmission`, `ApplyReply`,
  `QueryTask`, `RemoveTask` and `RefreshAll` are each proved to preserve
  `Tracked`, and start-up establishes it.
- `Reload` (`reload.dfy`): the start-up loop over the persisted list.

## Where the code departs from the intended lifecycle

The model follows the code in each of these cases.

- **Terminal states can be left.** `completed` and `failed` are meant to be
  final, but the code merges every reply blindly, and a failed task still
  shows its refresh button. `Lifecycle.FailedTaskCanBeRevived` shows a
  `failed` task going back to `processing`.
- **New tasks.** A new task takes the reply's `status`, and only falls back
  to `queued` when that status is falsy. Its `progress` is `0`, not absent.
- **Capacity.** The limit counts `queued`, `processing` and `in_progress`.
  Reload and refresh-all treat every status other than `completed` and
  `failed` as unfinished, including a missing status.
- **In-flight replies.** A reply that arrives after its task was deleted is
  not checked against the poller registry. It is harmless only because
  `updateTask` does nothing when the id is absent
  (`Lifecycle.NoResurrectionAfterRemove`).
- **Unique ids.** Ids are not enforced to be unique. `updateTask` touches
  only the first task with the id, while `removeTask` drops all of them. A
  later submission whose reply repeats a stored id puts the new record in
  front, so queries of that id send the new record's key from then on.

## Model

| member | source | states |
|---|---|---|
| `ErrorMessage.ExtractErrorMessage` | html/script.js:66-75 | a falsy result gives the fallback and a string result is returned as is; a truthy result that is neither a string nor an object has none of the fields and gives the fallback; with a non-empty fallback the message is never empty; any message other than the fallback or the result itself comes from `error`, `err`, the payload's `message`, `message` or `detail`. The lemmas below fix each step of the precedence |
| `ErrorMessage.StringErrorWins` | html/script.js:69-70 | a non-empty string under `error` is the message whatever the other fields hold |
| `ErrorMessage.ErrConsultedWhenErrorFalsy` | html/script.js:69-70 | when `error` is falsy, a non-empty string under `err` is the message |
| `ErrorMessage.ErrIgnoredWhenErrorTruthy` | html/script.js:69-74 | when `error` is truthy, `err` plays no part: two objects agreeing on `error`, `message` and `detail` give the same message |
| `ErrorMessage.NestedMessageBeforeTopLevel` | html/script.js:71-72 | a truthy `message` inside the error payload comes before the top-level `message` and `detail` |
| `ErrorMessage.MessageBeforeDetail` | html/script.js:71-73 | for any truthy non-string result whose payload is not a string and has no truthy `message`, a truthy top-level `message` is the message, ahead of `detail` |
| `ErrorMessage.DetailBeforeFallback` | html/script.js:71-74 | for any truthy non-string result, when neither the payload nor the top-level `message` gives one, a truthy `detail` is the message, and otherwise the fallback is |
| `ErrorMessage.NothingRecognisedYieldsFallback` | html/script.js:66-74 | a truthy non-string value (object, array, number or `true`) with none of the four fields truthy yields the fallback |
| `ErrorMessage.OnlyRecognisedFieldsMatter` | html/script.js:66-75 | two objects that agree on `error`, `err`, `message` and `detail` give the same message |
| `ErrorMessage.QuotaScenario` | html/script.js:69-71 | `{error: {message: "quota exceeded"}}` reports "quota exceeded" |
| `Response.ParseResponse` | html/script.js:899-911 | parsed JSON passes through unchanged; a read or parse failure becomes `{error: …}`; a non-JSON body is an error exactly when it is non-empty, and its text is that error; only a JSON `null` yields a value without properties |
| `Response.PlainTextIsTheMessage` | html/script.js:905-906 | a non-empty plain-text body is the extracted message, ahead of any fallback |
| `Response.EmptyBodyReportsFallback` | html/script.js:906 | an empty plain-text body becomes `{}` and reports the fallback |
| `Response.MissingContentTypeIsText` | html/script.js:900-902 | a missing content-type header means the body is read as text |
| `ImageValidation.ValidateImageFile` | html/script.js:80-110 | valid iff the file exists, 0 < size ≤ 20 MiB, the MIME type is one of the four allowed and the lower-cased name ends in an allowed extension; each error holds exactly when its check is the first to fail |
| `ImageValidation.MessageIdentifiesReason` | html/script.js:83-106 | the five refusal messages are pairwise different, so the refusal reason determines the message and back |
| `ImageValidation.ExtensionCheckIgnoresCase` | html/script.js:101-103 | lower-casing is idempotent, so the extension check gives the same answer for a name and its lower-cased form |
| `ImageValidation.UpperCaseExtensionAccepted` | html/script.js:101-109 | `CAT.JPG` of type `image/jpeg` is accepted |
| `ImageValidation.HeaderCheckMatchesSignatures` | html/script.js:117-134 | the hexadecimal prefix comparison accepts exactly the files whose first four bytes are one of the eight listed signatures; shorter files are refused |
| `Labels.GetStatusText` | html/script.js:44-53 | a known status gets its label and every other value is returned unchanged |
| `Labels.StatusTextIdempotent` | html/script.js:44-53 | labelling twice equals labelling once, because no label is itself a status |
| `Labels.StatusLabelsDistinguish` | html/script.js:45-51 | two known statuses share a label exactly when they are `processing` and `in_progress` |
| `Labels.GetSizeText` | html/script.js:55-59 | the two known sizes get their names and anything else is unchanged |
| `Labels.SizeTextProperties` | html/script.js:55-59 | the two names differ, and naming twice equals naming once |
| `Text.Trim` | html/script.js:270 | the result is an infix of the input that neither starts nor ends with white space, and everything cut off is white space |
| `Text.TrimEmptyIffBlank` | html/script.js:270-276 | the trimmed prompt is empty exactly when the prompt is all white space |
| `Text.TrimKeepsTrimmed` | html/script.js:270 | a string with no white space at either end is its own trim |
| `TaskStore.Merge` | html/script.js:419 | each field named in the updates takes the new value and each field left out keeps its old one; id, prompt, size, model and routing key are never changed |
| `TaskStore.MergeLaws` | html/script.js:419 | merging nothing is the identity, and merging the same updates twice equals merging them once |
| `TaskStore.FindIndex` | html/script.js:417 | returns the first index carrying the id, or none exactly when no task has it |
| `TaskStore.FindIndexDependsOnIds` | html/script.js:417 | two lists with the same ids, position by position, give the same lookup |
| `TaskStore.AddTask` | html/script.js:343-346 | the task goes in front, the others follow in order, and a lookup of its id finds it first |
| `TaskStore.UpdateTask` | html/script.js:416-422 | an absent id changes nothing; otherwise only the first task with the id is merged; no task is added, dropped or renamed |
| `TaskStore.UpdateUniqueTask` | html/script.js:416-422 | with unique ids, an update merges into exactly the task carrying the id and leaves every other task as it is |
| `TaskStore.RemoveById` | html/script.js:410 | no task with the id survives, every other task does, nothing is invented, and the length drops by the number of occurrences |
| `TaskStore.RemoveByIdKeepsOrder` | html/script.js:410 | removal distributes over concatenation, so the survivors keep their order |
| `TaskStore.RemoveOtherKeepsFirst` | html/script.js:410-417 | filtering out one id keeps the first task carrying any other id, unchanged |
| `Pollers.StartPolling` | html/script.js:565-572 | registers the id and nothing else; an id already registered leaves the registry unchanged |
| `Pollers.StopPolling` | html/script.js:574-579 | unregisters exactly that id; an absent id is a no-op |
| `Pollers.StartStopLaws` | html/script.js:565-579 | starting twice equals starting once, stopping twice equals stopping once, and stopping undoes a start on a fresh id |
| `Lifecycle.ActiveCount` | html/script.js:260-262 | counts the tasks in `queued`, `processing` or `in_progress`: zero exactly when none is, and at least 2 exactly when two different tasks are |
| `Lifecycle.KeyFromDraw` | html/script.js:302 | a draw in [0, 1) gives a routing key in 0..5 |
| `Lifecycle.EveryKeyCanBeDrawn` | html/script.js:302 | every key in 0..5 is the key of some draw in [0, 1) |
| `Lifecycle.NewTask` | html/script.js:315-324 | the new task has the reply's id, the `video` kind, the request's prompt, model, size and routing key, progress 0, a truthy status (the reply's, or `queued`), and no URL or error |
| `Lifecycle.FinishSubmission` | html/script.js:311-333 | a task is added exactly when the reply is ok and its parsed body has a truthy `id`, and the task takes that id; its poller is started; a thrown request, a non-ok reply, a `null` body and a falsy `id` each give their own error, and every outcome other than acceptance leaves the state unchanged |
| `Lifecycle.GenerateVideo` | html/script.js:254-337 | at capacity, the request is refused before anything else; a blank prompt is refused next; an invalid reference image is refused next, with its reason; a request is sent iff capacity, prompt and image checks pass, and it carries the trimmed prompt and the key drawn from the random number; acceptance happens exactly when a request was sent and its reply is ok with a truthy `id`, which becomes the task's id; only acceptance changes the state, by one task in front with progress 0, key in 0..5, and its poller started; a query of the new task sends that key |
| `Lifecycle.AdmittedSubmissionSendsRequest` | html/script.js:278-311 | once the local checks pass, the outcome is the reply's verdict on the request built from the inputs |
| `Lifecycle.AcceptedRespectsCapacity` | html/script.js:257-268 | an accepted submission starts below the limit and never takes the active count above 2 |
| `Lifecycle.SubmitScenario` | html/script.js:313-326 | a reply `{id: "abc", status: "queued"}` puts one queued task "abc" with progress 0 in front and polls it |
| `Lifecycle.SubmissionPreservesTracked` | html/script.js:325-326 | a submission keeps every poller attached to a stored task |
| `Lifecycle.FinishSubmissionPreservesTracked` | html/script.js:313-333 | whatever the reply, finishing a submission keeps every poller attached to a stored task |
| `Lifecycle.Reconcile` | html/script.js:517-562 | every reply writes a status; the poller stops exactly when that status is terminal; an error message is written exactly when the status is `failed`; a URL only with `completed`, and only a truthy one; the message is the thrown error's for an exception, the extracted one with the query fallback for a non-ok reply, the TypeError text for a `null` body, and the extracted one with the task fallback for an `error` field or a `failed` report |
| `Lifecycle.ApplyReply` | html/script.js:519-562 | the first task with the id receives exactly the reconciled updates of the reply, merged in; applied to a store without the task, the task list is unchanged; ids, length and routing keys never change; a task with another id is untouched; only the queried id's poller can stop |
| `Lifecycle.QueryTask` | html/script.js:504-563 | a task not in the store is not queried and nothing changes; otherwise the first task with the id receives exactly the reconciled updates of the reply; no task or poller is ever added |
| `Lifecycle.PollerStopsExactlyOnTerminal` | html/script.js:519-562 | the queried task's poller survives iff it was running and the new status is neither `completed` nor `failed`; other tasks and pollers are untouched |
| `Lifecycle.FailureRepliesFailTheTask` | html/script.js:519-562 | an exception, a non-ok response, an unusable body, an `error` field or a `failed` report each set `failed` with a message and stop the poller |
| `Lifecycle.CompletedReportCompletes` | html/script.js:533-540 | a `completed` report sets `completed` and stops the poller; `video_url` is recorded only when present, otherwise the old URL is kept |
| `Lifecycle.OrdinaryReportKeepsPolling` | html/script.js:547-549 | any other status is copied with `progress \|\| 0`; the URL, the error message and the poller stay as they were |
| `Lifecycle.QueryKeepsSubmissionFields` | html/script.js:416-422 | replies never change a task's routing key, prompt or size |
| `Lifecycle.QueryKeyHeader` | html/script.js:504-510 | a `keyidx` header is produced exactly when the task is in the store, and it is the recorded key (or blank) of the first task carrying the id |
| `Lifecycle.QueryKeepsKeyHeader` | html/script.js:509-510 | no reply, whether for a stored task or one deleted in flight, changes the `keyidx` header a later query sends for any task |
| `Lifecycle.RemoveKeepsOtherKeyHeader` | html/script.js:410 | deleting one id leaves the `keyidx` header of every other id unchanged |
| `Lifecycle.QueryPreservesTracked` | html/script.js:519-562 | reconciliation keeps every poller attached to a stored task |
| `Lifecycle.ApplyReplyPreservesTracked` | html/script.js:519-562 | a reply applied whenever it arrives, even after its task was deleted, keeps every poller attached to a stored task |
| `Lifecycle.FailedTaskCanBeRevived` | html/script.js:541-549 | a `failed` task that is queried again and told `processing` becomes `processing` |
| `Lifecycle.CompletedScenario` | html/script.js:533-538 | `{status: "completed", video_url: "https://x/a.mp4"}` completes "abc" with that URL and stops its poller |
| `Lifecycle.QuotaFailsTask` | html/script.js:519-525 | a poll answered `{error: {message: "quota exceeded"}}` fails the task with "quota exceeded" and stops its poller |
| `Lifecycle.RemoveTask` | html/script.js:400-414 | after confirmation, no task has the id and its poller is gone; the rest of the list is unchanged; declining changes nothing |
| `Lifecycle.RemovePreservesTracked` | html/script.js:410-411 | deletion keeps every poller attached to a stored task |
| `Lifecycle.NoResurrectionAfterRemove` | html/script.js:504-506 | after deletion, a later tick changes nothing; a reply already in flight leaves the list without the task |
| `Lifecycle.RefreshTargets` | html/script.js:581-594 | exactly the ids of tasks that are neither `completed` nor `failed`; empty exactly when every task is finished |
| `Lifecycle.RefreshTargetsKeepsOrder` | html/script.js:582-593 | the selection distributes over concatenation, so unfinished tasks are queried in list order, and two that share an id are both queried |
| `Lifecycle.RefreshAll` | html/script.js:581-594 | with nothing to refresh nothing changes; ids and length are kept; no poller starts; only refreshed tasks' pollers can stop; a task whose id is not selected is untouched |
| `Lifecycle.RefreshPreservesTracked` | html/script.js:581-594 | refresh-all keeps every poller attached to a stored task |
| `Lifecycle.ApplyRepliesEffect` | html/script.js:591-593 | with unique task ids and distinct queried ids, each task carrying a queried id gets exactly its own reply merged, and its poller survives iff it was running and that reply does not stop it |
| `Lifecycle.RefreshTargetsDistinct` | html/script.js:582 | with unique task ids, refresh-all selects each task at most once |
| `Lifecycle.RefreshAllQueriesEveryTarget` | html/script.js:581-594 | with unique ids, every unfinished task gets its own reply merged in, and its poller survives iff it was running and the reply is not terminal; completed and failed tasks are unchanged |
| `Lifecycle.RefreshKeepsKeyHeader` | html/script.js:581-594 | refresh-all leaves the `keyidx` header of every task unchanged |
| `Reload.ShownIds` | html/script.js:880-882 | lists exactly the ids of completed tasks |
| `Reload.ShownIdsKeepsOrder` | html/script.js:880-882 | the shown ids distribute over concatenation, so completed tasks are shown in list order |
| `Reload.RestoreTasks` | html/script.js:873-891 | the store becomes the saved list; the registry holds exactly the ids of tasks that are neither completed nor failed; completed tasks are shown in order |
| `Reload.RestoreIsTracked` | html/script.js:880-886 | after start-up every poller belongs to a stored task |
| `Reload.RestorePollsExactlyUnfinished` | html/script.js:880-886 | with unique ids, a task is polled after start-up iff it is neither completed nor failed |
| `Reload.RestoreMatchesRefreshSelection` | html/script.js:582 | start-up resumes polling for exactly the tasks refresh-all would query |
| `Reload.ReloadScenario` | html/script.js:880-886 | a saved `processing` task "x" is polled and a saved `failed` task "y" is not |

## Left out

- Rendering is left out: `renderTasks`, `displayVideoResult`, `scrollToVideoResult`, `removeResult`, toasts, the confirm modal, the lightbox, `togglePrompt`, `copyTaskId` and the preview UI of `previewImage`. They are presentation and hold no state the model tracks.
- Network I/O is left out: `fetch`, blobs, object URLs and `downloadVideo`. A request's outcome is an input (`Lifecycle.Reply`). Content download never changes task state.
- Timers are left out. A poller is membership of its id in a set, and the five-second period is not modelled. Overlapping ticks and interleavings across tasks are not modelled.
- `Lifecycle.RefreshAll`: applies the replies in list order, which is one of the possible arrival orders.
- Persistence is left out: `localStorage`, `JSON.stringify` and the `beforeunload` save. `Reload.RestoreTasks` takes the already-parsed list, which is empty when nothing was stored or the text did not parse. A stored value that parses to something other than a list of task records is not modelled.
- `generateUUID` and `getOrSetUUID` are left out, because they depend on `Math.random`, the clock and floating point. The `uuid` header is not modelled.
- `Math.random` is a parameter: submission takes the drawn number in [0, 1) and derives the key from it.
- JSON parsing is left out. A body carries its text together with the result of parsing it.
- Numbers are reals, and `NaN` is not modelled.
- `Lifecycle.GenerateVideo`: requires that a truthy `id` in an ok reply is a string, as the API promises. The model keys tasks by string ids, so a numeric id (stored raw, but keyed as text in the poller registry) is not modelled.
- `Lifecycle.Reconcile`: when an ok reply's JSON body is `null`, the model uses one fixed text for the TypeError message. The engine's actual wording is not fixed.
- `Lifecycle.FinishSubmission`: carries the same string-id precondition as `Lifecycle.GenerateVideo`, and uses the same fixed text for the TypeError of a `null` body as `Lifecycle.Reconcile`.
- `Labels.GetStatusText`: does not model JavaScript property-key coercion. A one-element array status is looked up as its string, and inherited names such as `constructor` hit `Object.prototype`; the model returns such values unchanged.
- `Pollers.StartPolling`: the registry is a set of ids, while `pollIntervals` is a plain object. An id that names an `Object.prototype` member (`constructor`, `toString`, `__proto__`) reads as already polled there and is never registered; the model registers it.
- `ImageValidation.ValidateImageFile`: lower-cases ASCII letters only. The outcome is still the same, because no non-ASCII character lower-cases to a string ending in one of the ASCII letters of an allowed extension: `İ` becomes `i` followed by U+0307, and the Kelvin sign becomes `k`, which no extension contains.
- `previewImage` runs the metadata check first, then the signature check. Only the two checks themselves are modelled. Submission does not run the signature check.
- Exceptions thrown by rendering on malformed stored records are not modelled.

=== FILE: error_message.dfy ===
/**
  Normalisation of a heterogeneous response body into one user-facing message
  (`extractErrorMessage`).
 */
module ErrorMessage {
  import opened Json

  /** `result.error || result.err || {}`: the error payload, or `{}` when neither field is truthy. */
  function ErrorPayload(result: JValue): (err: JValue)
    requires !result.Nullish()
    ensures !err.Nullish()
    ensures err.Truthy() || err == EmptyObject
    ensures Get(result, "error").Truthy() ==> err == Get(result, "error")
    ensures !Get(result, "error").Truthy() && Get(result, "err").Truthy() ==> err == Get(result, "err")
  {
    Or(Or(Get(result, "error"), Get(result, "err")), EmptyObject)
  }

  /** The places in a response a message may be taken from. */
  ghost predicate FoundIn(m: JValue, result: JValue)
    requires !result.Nullish()
  {
    || m == Get(result, "error")
    || m == Get(result, "err")
    || m == Get(ErrorPayload(result), "message")
    || m == Get(result, "message")
    || m == Get(result, "detail")
  }

  /**
    The message reported for `result`: the result itself when it is a string,
    else the error payload when that is a string, else the first truthy one of
    the payload's `message`, the result's `message` and its `detail`, else the
    fallback.
   */
  function ExtractErrorMessage(result: JValue, fallback: string): (r: JValue)
    ensures !result.Truthy() ==> r == Str(fallback)
    ensures result.Truthy() && result.Str? ==> r == result
    ensures result.Truthy() && !result.Str? && !result.Obj? ==> r == Str(fallback)
    ensures fallback != [] ==> r.Truthy()
    ensures r == Str(fallback) || r == result || (!result.Nullish() && FoundIn(r, result))
  {
    if !result.Truthy() then Str(fallback)
    else if result.Str? then result
    else
      var err := ErrorPayload(result);
      if err.Str? then err
      else if Get(err, "message").Truthy() then Get(err, "message")
      else if Get(result, "message").Truthy() then Get(result, "message")
      else if Get(result, "detail").Truthy() then Get(result, "detail")
      else Str(fallback)
  }

  /** A non-empty string under `error` wins over every other field. */
  lemma StringErrorWins(result: JValue, e: string, fallback: string)
    requires result.Obj? && Get(result, "error") == Str(e) && e != []
    ensures ExtractErrorMessage(result, fallback) == Str(e)
  {
  }

  /** With `error` falsy, a non-empty string under `err` is the message. */
  lemma ErrConsultedWhenErrorFalsy(result: JValue, fallback: string)
    requires result.Obj? && !Get(result, "error").Truthy() && Get(result, "err").Str?
    requires Get(result, "err").Truthy()
    ensures ExtractErrorMessage(result, fallback) == Get(result, "err")
  {
  }

  /**
    `err` is consulted only when `error` is falsy: with a truthy `error`, two
    objects that agree on `error`, `message` and `detail` give the same
    message, whatever their `err` holds.
   */
  lemma ErrIgnoredWhenErrorTruthy(a: JValue, b: JValue, fallback: string)
    requires a.Obj? && b.Obj? && Get(a, "error").Truthy()
    requires Get(a, "error") == Get(b, "error")
    requires Get(a, "message") == Get(b, "message") && Get(a, "detail") == Get(b, "detail")
    ensures ExtractErrorMessage(a, fallback) == ExtractErrorMessage(b, fallback)
  {
  }

  /** A nested error object's `message` comes before the top-level `message` and `detail`. */
  lemma NestedMessageBeforeTopLevel(result: JValue, fallback: string)
    requires result.Obj? && ErrorPayload(result).Obj?
    requires Get(ErrorPayload(result), "message").Truthy()
    ensures ExtractErrorMessage(result, fallback) == Get(ErrorPayload(result), "message")
  {
  }

  /**
    When the error payload is not a string and has no truthy `message`, the
    top-level `message` comes before `detail`.
   */
  lemma MessageBeforeDetail(result: JValue, fallback: string)
    requires result.Truthy() && !result.Str? && !ErrorPayload(result).Str? && !Get(ErrorPayload(result), "message").Truthy()
    requires Get(result, "message").Truthy()
    ensures ExtractErrorMessage(result, fallback) == Get(result, "message")
  {
  }

  /**
    When neither the payload nor the top-level `message` yields a message,
    a truthy `detail` is the message, and otherwise the fallback is.
   */
  lemma DetailBeforeFallback(result: JValue, fallback: string)
    requires result.Truthy() && !result.Str? && !ErrorPayload(result).Str? && !Get(ErrorPayload(result), "message").Truthy()
    requires !Get(result, "message").Truthy()
    ensures Get(result, "detail").Truthy() ==> ExtractErrorMessage(result, fallback) == Get(result, "detail")
    ensures !Get(result, "detail").Truthy() ==> ExtractErrorMessage(result, fallback) == Str(fallback)
  {
  }

  /**
    A value carrying none of the recognised fields yields the fallback; this
    includes every truthy value that is neither a string nor an object.
   */
  lemma NothingRecognisedYieldsFallback(result: JValue, fallback: string)
    requires result.Truthy() && !result.Str?
    requires !Get(result, "error").Truthy() && !Get(result, "err").Truthy()
    requires !Get(result, "message").Truthy() && !Get(result, "detail").Truthy()
    ensures ExtractErrorMessage(result, fallback) == Str(fallback)
  {
  }

  /** Fields other than `error`, `err`, `message` and `detail` never influence the message. */
  lemma OnlyRecognisedFieldsMatter(a: JValue, b: JValue, fallback: string)
    requires a.Obj? && b.Obj?
    requires forall k :: k in ["error", "err", "message", "detail"] ==> Get(a, k) == Get(b, k)
    ensures ExtractErrorMessage(a, fallback) == ExtractErrorMessage(b, fallback)
  {
    assert Get(a, "error") == Get(b, "error");
    assert Get(a, "err") == Get(b, "err");
    assert Get(a, "message") == Get(b, "message");
    assert Get(a, "detail") == Get(b, "detail");
  }

  /** `{error: {message: "quota exceeded"}}` reports "quota exceeded". */
  lemma QuotaScenario(fallback: string)
    ensures ExtractErrorMessage(Single("error", Single("message", Str("quota exceeded"))), fallback)
         == Str("quota exceeded")
  {
    var inner := Single("message", Str("quota exceeded"));
    var result := Single("error", inner);
    assert ErrorPayload(result) == inner;
  }
}

=== FILE: image_validation.dfy ===
/**
  Checks applied to a reference image before it is previewed or uploaded:
  the metadata check `validateImageFile` and the signature comparison inside
  `validateImageFileHeader` (without its asynchronous file reading).
 */
module ImageValidation {
  import opened Wrappers

  /** A selected file as the browser describes it. */
  datatype File = File(name: string, size: nat, mimeType: string)

  /** Why a file was refused, in the order the checks are applied. */
  datatype ImageError = NoFile | TooLarge | EmptyFile | UnsupportedType | BadExtension {
    /** The message shown to the user. */
    function Message(): string {
      match this
      case NoFile => "请选择文件"
      case TooLarge => "文件过大，请上传小于 20MB 的图片"   // 20 = MaxFileSize / 1024 / 1024
      case EmptyFile => "文件为空，请选择有效的图片文件"
      case UnsupportedType => "不支持的文件类型，仅支持 JPEG、PNG、WebP、GIF 格式"
      case BadExtension => "文件扩展名不正确，仅支持 .jpg/.jpeg/.png/.webp/.gif"
    }
  }

  /** The five refusal messages are pairwise different, so a message tells which check failed. */
  lemma MessageIdentifiesReason(a: ImageError, b: ImageError)
    ensures a.Message() == b.Message() <==> a == b
  {
  }

  datatype Validation = Valid | Invalid(reason: ImageError)

  const MaxFileSize: nat := 20 * 1024 * 1024
  const AllowedTypes: seq<string> := ["image/jpeg", "image/png", "image/webp", "image/gif"]
  const ValidExtensions: seq<string> := [".jpg", ".jpeg", ".png", ".webp", ".gif"]

  /** `toLowerCase` on one character; only ASCII letters change. */
  function LowerChar(c: char): char {
    if 'A' <= c <= 'Z' then (c as int - 'A' as int + 'a' as int) as char else c
  }

  function AsciiLower(s: string): (r: string)
    ensures |r| == |s|
  {
    seq(|s|, i requires 0 <= i < |s| => LowerChar(s[i]))
  }

  /** `s.endsWith(suffix)`. */
  predicate EndsWith(s: string, suffix: string) {
    |suffix| <= |s| && s[|s| - |suffix|..] == suffix
  }

  predicate HasValidExtension(name: string) {
    exists ext :: ext in ValidExtensions && EndsWith(AsciiLower(name), ext)
  }

  /** The condition under which a file passes every check. */
  ghost predicate Acceptable(file: File) {
    && 0 < file.size <= MaxFileSize
    && file.mimeType in AllowedTypes
    && HasValidExtension(file.name)
  }

  /**
    `validateImageFile`: valid exactly for an acceptable file; otherwise the
    first failing check, in the order presence, size limit, emptiness, MIME
    type, extension, names the error.
   */
  function ValidateImageFile(file: Option<File>): (r: Validation)
    ensures r.Valid? <==> file.Some? && Acceptable(file.value)
    ensures r == Invalid(NoFile) <==> file.None?
    ensures r == Invalid(TooLarge) <==> file.Some? && file.value.size > MaxFileSize
    ensures r == Invalid(EmptyFile) <==> file.Some? && file.value.size == 0
    ensures r == Invalid(UnsupportedType) <==>
              file.Some? && 0 < file.value.size <= MaxFileSize && file.value.mimeType !in AllowedTypes
    ensures r == Invalid(BadExtension) <==>
              && file.Some? && 0 < file.value.size <= MaxFileSize && file.value.mimeType in AllowedTypes
              && !HasValidExtension(file.value.name)
  {
    match file
    case None => Invalid(NoFile)
    case Some(f) =>
      if f.size > MaxFileSize then Invalid(TooLarge)
      else if f.size == 0 then Invalid(EmptyFile)
      else if f.mimeType !in AllowedTypes then Invalid(UnsupportedType)
      else if !HasValidExtension(f.name) then Invalid(BadExtension)
      else Valid
  }

  /** Lowering is idempotent, so the extension check ignores the case of the name. */
  lemma ExtensionCheckIgnoresCase(name: string)
    ensures AsciiLower(AsciiLower(name)) == AsciiLower(name)
    ensures HasValidExtension(AsciiLower(name)) <==> HasValidExtension(name)
  {
    var l := AsciiLower(name);
    assert forall i :: 0 <= i < |l| ==> AsciiLower(l)[i] == l[i];
  }

  /** An upper-case extension is accepted. */
  lemma UpperCaseExtensionAccepted()
    ensures ValidateImageFile(Some(File("CAT.JPG", 1024, "image/jpeg"))) == Valid
  {
    var l := AsciiLower("CAT.JPG");
    assert l == "cat.jpg";
    assert EndsWith(l, ".jpg");
  }

  // ---------------------------------------------------------------------------
  // Signature ("magic number") check

  newtype byte = x: int | 0 <= x < 256

  /** Lower-case hexadecimal digit, as `toString(16)` writes it. */
  function HexDigit(n: int): char
    requires 0 <= n < 16
  {
    if n < 10 then ('0' as int + n) as char else ('a' as int + n - 10) as char
  }

  /** `b.toString(16).padStart(2, '0')`. */
  function Hex2(b: byte): (r: string)
    ensures |r| == 2
  {
    [HexDigit(b as int / 16), HexDigit(b as int % 16)]
  }

  /** The bytes joined as hexadecimal pairs. */
  function HexString(bytes: seq<byte>): (r: string)
    ensures |r| == 2 * |bytes|
  {
    if |bytes| == 0 then [] else Hex2(bytes[0]) + HexString(bytes[1..])
  }

  /** The hexadecimal text of the first (at most) four bytes of a file. */
  function Header(bytes: seq<byte>): string {
    HexString(if |bytes| <= 4 then bytes else bytes[..4])
  }

  /** The header keys accepted as image signatures: JPEG (five variants), PNG, GIF, RIFF/WEBP. */
  const ValidHeaders: seq<string> :=
    ["ffd8ffe0", "ffd8ffe1", "ffd8ffe2", "ffd8ffe8", "ffd8ffdb", "89504e47", "47494638", "52494646"]

  /** The same signatures as raw bytes. */
  const Signatures: seq<seq<byte>> :=
    [[0xff, 0xd8, 0xff, 0xe0], [0xff, 0xd8, 0xff, 0xe1], [0xff, 0xd8, 0xff, 0xe2],
     [0xff, 0xd8, 0xff, 0xe8], [0xff, 0xd8, 0xff, 0xdb], [0x89, 0x50, 0x4e, 0x47],
     [0x47, 0x49, 0x46, 0x38], [0x52, 0x49, 0x46, 0x46]]

  /**
    `validateImageFileHeader` once the first bytes are available: a read
    error (None) rejects, otherwise the hexadecimal header must start with one
    of the accepted keys.
   */
  predicate ValidateImageFileHeader(read: Option<seq<byte>>) {
    match read
    case None => false
    case Some(bytes) => exists h :: h in ValidHeaders && h <= Header(bytes)
  }

  lemma HexDigitInjective(a: int, b: int)
    requires 0 <= a < 16 && 0 <= b < 16
    ensures HexDigit(a) == HexDigit(b) ==> a == b
  {
  }

  lemma Hex2Injective(a: byte, b: byte)
    ensures Hex2(a) == Hex2(b) ==> a == b
  {
    if Hex2(a) == Hex2(b) {
      HexDigitInjective(a as int / 16, b as int / 16);
      HexDigitInjective(a as int % 16, b as int % 16);
    }
  }

  lemma {:induction false} HexStringInjective(a: seq<byte>, b: seq<byte>)
    requires |a| == |b|
    ensures HexString(a) == HexString(b) ==> a == b
  {
    if |a| > 0 && HexString(a) == HexString(b) {
      var ha, hb := HexString(a), HexString(b);
      assert ha[..2] == Hex2(a[0]) && hb[..2] == Hex2(b[0]);
      Hex2Injective(a[0], b[0]);
      assert ha[2..] == HexString(a[1..]) && hb[2..] == HexString(b[1..]);
      HexStringInjective(a[1..], b[1..]);
      assert a == [a[0]] + a[1..];
      assert b == [b[0]] + b[1..];
    }
  }

  lemma KeysAreHexOfSignatures()
    ensures |ValidHeaders| == |Signatures|
    ensures forall k :: 0 <= k < |Signatures| ==> |Signatures[k]| == 4 && HexString(Signatures[k]) == ValidHeaders[k]
  {
    assert HexDigit(15) == 'f' && HexDigit(13) == 'd' && HexDigit(8) == '8' && HexDigit(14) == 'e';
    assert HexDigit(0) == '0' && HexDigit(1) == '1' && HexDigit(2) == '2' && HexDigit(11) == 'b';
    assert HexDigit(9) == '9' && HexDigit(5) == '5' && HexDigit(4) == '4' && HexDigit(7) == '7';
    assert HexDigit(6) == '6' && HexDigit(3) == '3';
  }

  /**
    The hexadecimal comparison accepts exactly the files whose first four bytes
    are one of the listed signatures; shorter files are always refused.
   */
  lemma {:induction false} HeaderCheckMatchesSignatures(bytes: seq<byte>)
    ensures ValidateImageFileHeader(Some(bytes)) <==> |bytes| >= 4 && bytes[..4] in Signatures
  {
    KeysAreHexOfSignatures();
    var header := Header(bytes);
    if ValidateImageFileHeader(Some(bytes)) {
      var h :| h in ValidHeaders && h <= header;
      var k :| 0 <= k < |ValidHeaders| && ValidHeaders[k] == h;
      assert |h| == 8;
      assert |bytes| >= 4;
      assert header == h;
      assert |bytes| == 4 ==> bytes == bytes[..4];
      assert header == HexString(bytes[..4]);
      HexStringInjective(bytes[..4], Signatures[k]);
      assert Signatures[k] in Signatures;
    }
    if |bytes| >= 4 && bytes[..4] in Signatures {
      var k :| 0 <= k < |Signatures| && Signatures[k] == bytes[..4];
      assert |bytes| == 4 ==> bytes == bytes[..4];
      assert header == HexString(bytes[..4]);
      var h := ValidHeaders[k];
      assert h == header;
      assert h in ValidHeaders && h <= Header(bytes);
      assert ValidateImageFileHeader(Some(bytes));
    }
  }
}

=== FILE: json.dfy ===
/**
  The JavaScript values the controller receives from `JSON.parse`, together
  with `undefined` (the value of a missing property). Only the parts of
  JavaScript semantics the controller relies on are modelled: truthiness,
  property access, and the value of `a || b`.
 */
module Json {

  datatype JValue =
    | Undefined
    | Null
    | Bool(b: bool)
    | Num(n: real)
    | Str(s: string)
    | Arr(items: seq<JValue>)
    | Obj(fields: map<string, JValue>)
  {
    /** JavaScript truthiness: `undefined`, `null`, `false`, `0` and `""` are falsy. */
    predicate Truthy() {
      match this
      case Undefined => false
      case Null => false
      case Bool(b) => b
      case Num(n) => n != 0.0
      case Str(s) => s != []
      case Arr(_) => true
      case Obj(_) => true
    }

    /** Values on which a property access throws a TypeError. */
    predicate Nullish() {
      Undefined? || Null?
    }
  }

  /** The empty object literal `{}`. */
  const EmptyObject: JValue := Obj(map[])

  /**
    `v.key` for a value that is neither null nor undefined. None of the keys the
    controller reads ("error", "err", "message", "detail", "id", "status",
    "progress", "video_url") is inherited by strings, numbers, arrays or plain
    objects, so only an object's own field can supply a value.
   */
  function Get(v: JValue, key: string): (r: JValue)
    requires !v.Nullish()
    ensures r != Undefined ==> v.Obj? && key in v.fields
  {
    if v.Obj? && key in v.fields then v.fields[key] else Undefined
  }

  /** The value of `a || b`: the first operand when it is truthy, else the second. */
  function Or(a: JValue, b: JValue): (r: JValue)
    ensures r.Truthy() <==> a.Truthy() || b.Truthy()
    ensures r == a || r == b
  {
    if a.Truthy() then a else b
  }

  /** A single-field object `{key: v}`. */
  function Single(key: string, v: JValue): (r: JValue)
    ensures r.Obj? && Get(r, key) == v
  {
    Obj(map[key := v])
  }
}

=== FILE: labels.dfy ===
/** Display labels for task statuses and output sizes (`getStatusText`, `getSizeText`). */
module Labels {
  import opened Json

  /** The statuses that have a label, and their labels; `processing` and `in_progress` share one. */
  const StatusLabels: map<string, string> := map[
    "queued" := "排队中",
    "processing" := "生成中",
    "in_progress" := "生成中",
    "completed" := "已完成",
    "failed" := "失败"
  ]

  /** `getStatusText`: the label of a known status, any other value unchanged. */
  function GetStatusText(status: JValue): (r: JValue)
    ensures status.Str? && status.s in StatusLabels ==> r == Str(StatusLabels[status.s])
    ensures !(status.Str? && status.s in StatusLabels) ==> r == status
  {
    if status.Str? && status.s in StatusLabels then Str(StatusLabels[status.s]) else status
  }

  /** Labelling twice is the same as labelling once: no label is itself a known status. */
  lemma StatusTextIdempotent(status: JValue)
    ensures GetStatusText(GetStatusText(status)) == GetStatusText(status)
  {
    assert forall k :: k in StatusLabels ==> StatusLabels[k] !in StatusLabels;
  }

  /** Two known statuses share a label only when they are `processing` and `in_progress`. */
  lemma StatusLabelsDistinguish(a: string, b: string)
    requires a in StatusLabels && b in StatusLabels && a != b
    ensures GetStatusText(Str(a)) == GetStatusText(Str(b)) <==> {a, b} == {"processing", "in_progress"}
  {
    if {a, b} == {"processing", "in_progress"} {
      assert a == "processing" || a == "in_progress";
      assert b == "processing" || b == "in_progress";
    }
  }

  const Landscape: string := "1280x720"
  const Portrait: string := "720x1280"

  /** `getSizeText`: a name for the two known sizes, any other value unchanged. */
  function GetSizeText(size: string): (r: string)
    ensures size == Landscape ==> r == "横屏"
    ensures size == Portrait ==> r == "竖屏"
    ensures size != Landscape && size != Portrait ==> r == size
  {
    if size == Landscape then "横屏"
    else if size == Portrait then "竖屏"
    else size
  }

  /** The two known sizes get different names, and naming twice changes nothing. */
  lemma SizeTextProperties(size: string)
    ensures GetSizeText(Landscape) != GetSizeText(Portrait)
    ensures GetSizeText(GetSizeText(size)) == GetSizeText(size)
  {
  }
}

=== FILE: lifecycle.dfy ===
/**
  The task lifecycle controller: submission admission (`generateVideo`), poll
  reconciliation (`queryTask`), deletion (`removeTask`) and the manual
  refresh of every unfinished task (`refreshAllTasks`), each as a transition
  on the pair (task list, poller registry). Network replies are inputs.
 */
module Lifecycle {
  import opened Wrappers
  import opened Json
  import opened ErrorMessage
  import opened Response
  import opened ImageValidation
  import opened Text
  import opened TaskStore
  import opened Pollers

  /** The controller's state: the task list (newest first) and the ids with a live poller. */
  datatype State = State(tasks: seq<Task>, pollers: Registry)

  /** What a request resolved to: `fetch` rejected with an error message, or a response arrived. */
  datatype Reply = Threw(message: string) | Replied(response: HttpResponse)

  /** At most this many tasks may be queued or processing when a new one is submitted. */
  const MaxActiveTasks: nat := 2
  /** Routing keys are drawn from 0 .. KeyCount - 1. */
  const KeyCount: nat := 6
  const ModelName: string := "sora-2"
  const Seconds: string := "15"
  const TaskKind: string := "video"

  const Queued: JValue := Str("queued")
  const Completed: JValue := Str("completed")
  const Failed: JValue := Str("failed")

  /**
    The message of the TypeError raised when a successful reply's JSON body is
    `null` and a property is read from it; its wording is the JavaScript
    engine's, so one fixed text stands for it.
   */
  const NullPropertyMessage: string := "Cannot read properties of null"

  const SubmitFailedFallback: string := "任务提交失败"

  function TaskFailedFallback(id: string): string {
    "任务 " + id + " 失败"
  }

  function QueryFailedFallback(id: string): string {
    "任务 " + id + " 查询失败"
  }

  /** `Math.floor(Math.random() * 6)`: the routing key for a draw in [0, 1). */
  function KeyFromDraw(draw: real): (k: int)
    requires 0.0 <= draw < 1.0
    ensures 0 <= k < KeyCount
  {
    (draw * KeyCount as real).Floor
  }

  /** Every key can be drawn: the draw k / 6 gives key k. */
  lemma EveryKeyCanBeDrawn(k: int)
    requires 0 <= k < KeyCount
    ensures 0.0 <= k as real / KeyCount as real < 1.0
    ensures KeyFromDraw(k as real / KeyCount as real) == k
  {
    assert k as real / KeyCount as real * KeyCount as real == k as real;
  }

  /** Statuses counted against the capacity limit. */
  predicate IsActive(t: Task) {
    t.status == Queued || t.status == Str("processing") || t.status == Str("in_progress")
  }

  /** `completed` and `failed`: the statuses on which polling stops. */
  predicate IsTerminal(status: JValue) {
    status == Completed || status == Failed
  }

  /** The number of active tasks. */
  function ActiveCount(tasks: seq<Task>): (n: nat)
    ensures n <= |tasks|
    ensures n == 0 <==> forall i :: 0 <= i < |tasks| ==> !IsActive(tasks[i])
    ensures n >= 2 <==> exists i, j :: 0 <= i < j < |tasks| && IsActive(tasks[i]) && IsActive(tasks[j])
  {
    if |tasks| == 0 then 0
    else (if IsActive(tasks[0]) then 1 else 0) + ActiveCount(tasks[1..])
  }

  /** Every registered poller belongs to a task in the store. */
  predicate Tracked(s: State) {
    s.pollers <= TaskIds(s.tasks)
  }

  // ---------------------------------------------------------------------------
  // Submission

  /** The multipart request `generateVideo` sends, with its `keyidx` header. */
  datatype SubmitRequest = SubmitRequest(
    prompt: string, model: string, seconds: string, size: string,
    reference: Option<File>, keyIdx: int)

  datatype SubmitVerdict =
    | CapacityExceeded
    | EmptyPrompt
    | InvalidImage(reason: ImageError)
    | RequestError(message: string)
    | Rejected(serverMessage: JValue)
    | Accepted(id: string)

  /** The state after a submission attempt, the request sent (if any), and its verdict. */
  datatype Submission = Submission(state: State, request: Option<SubmitRequest>, verdict: SubmitVerdict)

  /**
    The API names a new task with a string: a successful reply whose `id` is
    truthy carries a string there.
   */
  predicate SubmitReplyWellTyped(reply: Reply) {
    reply.Replied? && reply.response.ok && !ParseResponse(reply.response).Nullish() ==>
      var id := Get(ParseResponse(reply.response), "id");
      id.Truthy() ==> id.Str?
  }

  /** The task recorded for an accepted submission. */
  function NewTask(id: string, req: SubmitRequest, result: JValue): (t: Task)
    requires !result.Nullish()
    ensures t.id == id && t.prompt == req.prompt && t.size == req.size
    ensures t.model == req.model && t.kind == TaskKind
    ensures t.routingKey == Some(req.keyIdx) && t.progress == Num(0.0)
    ensures t.status.Truthy() && (Get(result, "status").Truthy() ==> t.status == Get(result, "status"))
    ensures !Get(result, "status").Truthy() ==> t.status == Queued
    ensures t.videoUrl.None? && t.errorMessage.None?
  {
    Task(id, TaskKind, req.prompt, Or(Get(result, "status"), Queued), Num(0.0),
         req.model, req.size, Some(req.keyIdx), None, None)
  }

  /** What follows the request: the reply decides between a new task and an error. */
  function FinishSubmission(s: State, req: SubmitRequest, reply: Reply): (r: Submission)
    requires SubmitReplyWellTyped(reply)
    ensures r.request == Some(req)
    ensures !r.verdict.Accepted? ==> r.state == s
    ensures r.verdict.Accepted? ==>
              && reply.Replied? && reply.response.ok && !ParseResponse(reply.response).Nullish()
              && r.state.tasks == AddTask(s.tasks, NewTask(r.verdict.id, req, ParseResponse(reply.response)))
              && r.state.pollers == StartPolling(s.pollers, r.verdict.id)
    ensures r.verdict.Accepted? <==>
              && reply.Replied? && reply.response.ok && !ParseResponse(reply.response).Nullish()
              && Get(ParseResponse(reply.response), "id").Truthy()
    ensures r.verdict.Accepted? ==> Get(ParseResponse(reply.response), "id") == Str(r.verdict.id)
    ensures reply.Threw? ==> r.verdict == RequestError(reply.message)
    ensures reply.Replied? && !reply.response.ok ==>
              r.verdict == Rejected(ExtractErrorMessage(ParseResponse(reply.response), SubmitFailedFallback))
    ensures reply.Replied? && reply.response.ok && ParseResponse(reply.response).Nullish() ==>
              r.verdict == RequestError(NullPropertyMessage)
    ensures reply.Replied? && reply.response.ok && !ParseResponse(reply.response).Nullish()
            && !Get(ParseResponse(reply.response), "id").Truthy() ==>
              r.verdict == Rejected(ExtractErrorMessage(ParseResponse(reply.response), SubmitFailedFallback))
  {
    match reply
    case Threw(msg) => Submission(s, Some(req), RequestError(msg))
    case Replied(resp) =>
      var result := ParseResponse(resp);
      if !resp.ok then Submission(s, Some(req), Rejected(ExtractErrorMessage(result, SubmitFailedFallback)))
      else if result.Nullish() then Submission(s, Some(req), RequestError(NullPropertyMessage))
      else
        match Get(result, "id")
        case Str(id) =>
          if id != [] then
            var t := NewTask(id, req, result);
            Submission(State(AddTask(s.tasks, t), StartPolling(s.pollers, id)), Some(req), Accepted(id))
          else Submission(s, Some(req), Rejected(ExtractErrorMessage(result, SubmitFailedFallback)))
        case _ => Submission(s, Some(req), Rejected(ExtractErrorMessage(result, SubmitFailedFallback)))
  }

  /**
    `generateVideo`. The capacity check comes first, then the trimmed prompt,
    then the reference image; a submission refused by any of them sends no
    request and changes nothing. Only an accepted submission changes the
    state: exactly one task is put in front with progress 0, the reply's
    status (or `queued`), and the routing key sent with the request, its
    poller is started, and the earlier tasks keep their order.
   */
  function GenerateVideo(s: State, promptInput: string, size: string, image: Option<File>,
                         draw: real, reply: Reply): (r: Submission)
    requires 0.0 <= draw < 1.0
    requires SubmitReplyWellTyped(reply)
    ensures ActiveCount(s.tasks) >= MaxActiveTasks ==> r == Submission(s, None, CapacityExceeded)
    ensures ActiveCount(s.tasks) < MaxActiveTasks && AllWhiteSpace(promptInput) ==>
              r == Submission(s, None, EmptyPrompt)
    ensures r.request.Some? <==>
              && ActiveCount(s.tasks) < MaxActiveTasks
              && !AllWhiteSpace(promptInput)
              && (image.None? || ValidateImageFile(image).Valid?)
    ensures && ActiveCount(s.tasks) < MaxActiveTasks && !AllWhiteSpace(promptInput)
            && image.Some? && ValidateImageFile(image).Invalid? ==>
              r == Submission(s, None, InvalidImage(ValidateImageFile(image).reason))
    ensures r.request.Some? ==>
              r.request.value == SubmitRequest(Trim(promptInput), ModelName, Seconds, size, image, KeyFromDraw(draw))
    ensures r.verdict.Accepted? <==>
              && r.request.Some? && reply.Replied? && reply.response.ok
              && !ParseResponse(reply.response).Nullish()
              && Get(ParseResponse(reply.response), "id").Truthy()
    ensures r.verdict.Accepted? ==> Get(ParseResponse(reply.response), "id") == Str(r.verdict.id)
    ensures !r.verdict.Accepted? ==> r.state == s
    ensures r.verdict.Accepted? ==>
              && |r.state.tasks| == |s.tasks| + 1
              && r.state.tasks[1..] == s.tasks
              && var t := r.state.tasks[0];
                 && t.id == r.verdict.id && t.prompt == Trim(promptInput) && t.size == size
                 && t.progress == Num(0.0) && t.status.Truthy()
                 && t.routingKey == Some(KeyFromDraw(draw)) && 0 <= t.routingKey.value < KeyCount
                 && r.state.pollers == StartPolling(s.pollers, t.id)
                 && QueryKeyHeader(r.state, t.id) == Some(KeyIdx(t.routingKey.value))
  {
    if ActiveCount(s.tasks) >= MaxActiveTasks then Submission(s, None, CapacityExceeded)
    else
      var prompt := Trim(promptInput);
      TrimEmptyIffBlank(promptInput);
      if prompt == [] then Submission(s, None, EmptyPrompt)
      else if image.Some? && ValidateImageFile(image).Invalid? then
        Submission(s, None, InvalidImage(ValidateImageFile(image).reason))
      else
        FinishSubmission(s, SubmitRequest(prompt, ModelName, Seconds, size, image, KeyFromDraw(draw)), reply)
  }

  /** An accepted submission never takes the number of active tasks above the limit. */
  lemma AcceptedRespectsCapacity(s: State, promptInput: string, size: string, image: Option<File>,
                                 draw: real, reply: Reply)
    requires 0.0 <= draw < 1.0
    requires SubmitReplyWellTyped(reply)
    requires GenerateVideo(s, promptInput, size, image, draw, reply).verdict.Accepted?
    ensures ActiveCount(s.tasks) < MaxActiveTasks
    ensures ActiveCount(GenerateVideo(s, promptInput, size, image, draw, reply).state.tasks) <= MaxActiveTasks
  {
    var r := GenerateVideo(s, promptInput, size, image, draw, reply);
    assert r.state.tasks == [r.state.tasks[0]] + s.tasks;
  }

  /** The reply `{id: "abc", status: "queued"}` with a JSON content type. */
  predicate QueuedAbcReply(resp: HttpResponse) {
    && resp.ok && DeclaresJson(resp) && resp.body.Body?
    && resp.body.json == Some(Obj(map["id" := Str("abc"), "status" := Queued]))
  }

  /**
    A request answered `{id: "abc", status: "queued"}` puts one queued task
    "abc" with the request's prompt in front of the store and polls it.
   */
  lemma SubmitScenario(s: State, req: SubmitRequest, resp: HttpResponse)
    requires QueuedAbcReply(resp)
    ensures SubmitReplyWellTyped(Replied(resp))
    ensures var r := FinishSubmission(s, req, Replied(resp));
            && r.verdict == Accepted("abc")
            && r.state.tasks == [NewTask("abc", req, ParseResponse(resp))] + s.tasks
            && r.state.tasks[0].status == Queued && r.state.tasks[0].prompt == req.prompt
            && r.state.tasks[0].progress == Num(0.0)
            && "abc" in r.state.pollers
  {
    var result := Obj(map["id" := Str("abc"), "status" := Queued]);
    assert ParseResponse(resp) == result;
    assert Get(result, "id") == Str("abc");
    assert Get(result, "status") == Queued;
  }

  /** Once every local check passes, the outcome is decided by the reply to the request built from the inputs. */
  lemma AdmittedSubmissionSendsRequest(s: State, promptInput: string, size: string, image: Option<File>,
                                       draw: real, reply: Reply)
    requires 0.0 <= draw < 1.0
    requires SubmitReplyWellTyped(reply)
    requires ActiveCount(s.tasks) < MaxActiveTasks && !AllWhiteSpace(promptInput)
    requires image.None? || ValidateImageFile(image).Valid?
    ensures GenerateVideo(s, promptInput, size, image, draw, reply)
         == FinishSubmission(s, SubmitRequest(Trim(promptInput), ModelName, Seconds, size, image, KeyFromDraw(draw)), reply)
  {
    TrimEmptyIffBlank(promptInput);
  }

  /** Whatever the reply, finishing a submission keeps every registered poller attached to a task. */
  lemma FinishSubmissionPreservesTracked(s: State, req: SubmitRequest, reply: Reply)
    requires SubmitReplyWellTyped(reply)
    requires Tracked(s)
    ensures Tracked(FinishSubmission(s, req, reply).state)
  {
    var r := FinishSubmission(s, req, reply);
    if r.verdict.Accepted? {
      var ts := r.state.tasks;
      forall x | x in r.state.pollers ensures x in TaskIds(ts) {
        if x == r.verdict.id {
          assert ts[0].id == x;
        } else {
          var i :| 0 <= i < |s.tasks| && s.tasks[i].id == x;
          assert ts[i + 1] == s.tasks[i];
        }
      }
    }
  }

  /** A submission keeps every registered poller attached to a task. */
  lemma SubmissionPreservesTracked(s: State, promptInput: string, size: string, image: Option<File>,
                                   draw: real, reply: Reply)
    requires 0.0 <= draw < 1.0
    requires SubmitReplyWellTyped(reply)
    requires Tracked(s)
    ensures Tracked(GenerateVideo(s, promptInput, size, image, draw, reply).state)
  {
    var r := GenerateVideo(s, promptInput, size, image, draw, reply);
    if r.request.Some? {
      AdmittedSubmissionSendsRequest(s, promptInput, size, image, draw, reply);
      FinishSubmissionPreservesTracked(s, r.request.value, reply);
    }
  }

  // ---------------------------------------------------------------------------
  // Poll reconciliation

  /** What one status reply does: the fields to merge into the task, and whether its poller stops. */
  datatype Verdict = Verdict(updates: Updates, stop: bool)

  function FailWith(message: JValue): Updates {
    Updates(Some(Failed), None, None, Some(message))
  }

  /** The reply is a successful response whose parsed body has properties and no truthy `error`. */
  predicate IsStatusReport(reply: Reply) {
    && reply.Replied? && reply.response.ok
    && !ParseResponse(reply.response).Nullish()
    && !Get(ParseResponse(reply.response), "error").Truthy()
  }

  /** The `status` a status report carries. */
  function ReportedStatus(reply: Reply): JValue
    requires IsStatusReport(reply)
  {
    Get(ParseResponse(reply.response), "status")
  }

  /**
    The part of `queryTask` after the reply arrives, as a pure decision. A
    rejected request, a non-ok response, an unusable body, a truthy `error`
    field and a reported `failed` status all fail the task with a message; a
    reported `completed` completes it, taking `video_url` only when present;
    any other status is copied with its progress (`progress || 0`). The
    poller stops exactly when the status written is terminal.
   */
  function Reconcile(id: string, reply: Reply): (v: Verdict)
    ensures v.updates.status.Some?
    ensures v.stop <==> IsTerminal(v.updates.status.value)
    ensures v.updates.errorMessage.Some? <==> v.updates.status == Some(Failed)
    ensures v.updates.videoUrl.Some? ==> v.updates.status == Some(Completed) && v.updates.videoUrl.value.Truthy()
    ensures !IsStatusReport(reply) ==> v.updates.status == Some(Failed) && v.updates.progress.None?
    ensures reply.Threw? ==> v.updates.errorMessage == Some(Str(reply.message))
    ensures reply.Replied? && !reply.response.ok ==>
              v.updates.errorMessage == Some(ExtractErrorMessage(ParseResponse(reply.response), QueryFailedFallback(id)))
    ensures reply.Replied? && reply.response.ok && ParseResponse(reply.response).Nullish() ==>
              v.updates.errorMessage == Some(Str(NullPropertyMessage))
    ensures reply.Replied? && reply.response.ok && !ParseResponse(reply.response).Nullish()
            && (Get(ParseResponse(reply.response), "error").Truthy() || Get(ParseResponse(reply.response), "status") == Failed) ==>
              v.updates.errorMessage == Some(ExtractErrorMessage(ParseResponse(reply.response), TaskFailedFallback(id)))
    ensures IsStatusReport(reply) ==>
              && v.updates.status == Some(ReportedStatus(reply))
              && v.updates.progress == Some(Or(Get(ParseResponse(reply.response), "progress"), Num(0.0)))
    ensures IsStatusReport(reply) && ReportedStatus(reply) == Completed ==>
              var url := Get(ParseResponse(reply.response), "video_url");
              v.updates.videoUrl == (if url.Truthy() then Some(url) else None)
  {
    match reply
    case Threw(msg) => Verdict(FailWith(Str(msg)), true)
    case Replied(resp) =>
      var result := ParseResponse(resp);
      if !resp.ok then Verdict(FailWith(ExtractErrorMessage(result, QueryFailedFallback(id))), true)
      else if result.Nullish() then Verdict(FailWith(Str(NullPropertyMessage)), true)
      else if Get(result, "error").Truthy() then
        Verdict(FailWith(ExtractErrorMessage(result, TaskFailedFallback(id))), true)
      else
        var status := Get(result, "status");
        var progress := Or(Get(result, "progress"), Num(0.0));
        if status == Completed then
          var url := Get(result, "video_url");
          Verdict(Updates(Some(status), Some(progress), if url.Truthy() then Some(url) else None, None), true)
        else if status == Failed then
          Verdict(Updates(Some(status), Some(progress), None,
                          Some(ExtractErrorMessage(result, TaskFailedFallback(id)))), true)
        else Verdict(Updates(Some(status), Some(progress), None, None), false)
  }

  /**
    Applies a reply to the state current when it arrives. The task may have
    been deleted while the request was in flight: then the task list is left
    exactly as it is.
   */
  function ApplyReply(s: State, id: string, reply: Reply): (r: State)
    ensures |r.tasks| == |s.tasks|
    ensures forall i :: 0 <= i < |r.tasks| ==> r.tasks[i].id == s.tasks[i].id
    ensures !Has(s.tasks, id) ==> r.tasks == s.tasks
    ensures r.pollers <= s.pollers && s.pollers - r.pollers <= {id}
    ensures id in r.pollers <==> id in s.pollers && !Reconcile(id, reply).stop
    ensures forall i :: 0 <= i < |r.tasks| ==> r.tasks[i].routingKey == s.tasks[i].routingKey
    ensures forall i :: 0 <= i < |r.tasks| && s.tasks[i].id != id ==> r.tasks[i] == s.tasks[i]
    ensures Has(s.tasks, id) ==>
              var k := FindIndex(s.tasks, id).value;
              r.tasks[k] == Merge(s.tasks[k], Reconcile(id, reply).updates)
  {
    var v := Reconcile(id, reply);
    State(UpdateTask(s.tasks, id, v.updates), if v.stop then StopPolling(s.pollers, id) else s.pollers)
  }

  /** `queryTask`: a task that is not in the store is not queried at all. */
  function QueryTask(s: State, id: string, reply: Reply): (r: State)
    ensures !Has(s.tasks, id) ==> r == s
    ensures |r.tasks| == |s.tasks|
    ensures forall i :: 0 <= i < |r.tasks| ==> r.tasks[i].id == s.tasks[i].id
    ensures r.pollers <= s.pollers
    ensures Has(s.tasks, id) ==>
              var k := FindIndex(s.tasks, id).value;
              r.tasks[k] == Merge(s.tasks[k], Reconcile(id, reply).updates)
  {
    if !Has(s.tasks, id) then s else ApplyReply(s, id, reply)
  }

  /** The status the queried task holds after the reply. */
  function StatusAfter(s: State, id: string, reply: Reply): JValue
    requires Has(s.tasks, id)
  {
    var k := FindIndex(s.tasks, id).value;
    QueryTask(s, id, reply).tasks[k].status
  }

  /**
    The poller of a queried task survives exactly when it was running and the
    task's new status is neither `completed` nor `failed`; no other task and
    no other poller is touched.
   */
  lemma PollerStopsExactlyOnTerminal(s: State, id: string, reply: Reply)
    requires Has(s.tasks, id)
    ensures var r := QueryTask(s, id, reply);
            && (id in r.pollers <==> id in s.pollers && !IsTerminal(StatusAfter(s, id, reply)))
            && r.pollers - {id} == s.pollers - {id}
            && var k := FindIndex(s.tasks, id).value;
               forall i :: 0 <= i < |s.tasks| && i != k ==> r.tasks[i] == s.tasks[i]
  {
  }

  /** Every reply that is not a usable status report fails the task with a message and stops its poller. */
  lemma FailureRepliesFailTheTask(s: State, id: string, reply: Reply)
    requires Has(s.tasks, id)
    requires !IsStatusReport(reply) || ReportedStatus(reply) == Failed
    ensures var r := QueryTask(s, id, reply);
            var k := FindIndex(s.tasks, id).value;
            && r.tasks[k].status == Failed
            && r.tasks[k].errorMessage.Some?
            && id !in r.pollers
  {
  }

  /**
    A `completed` report completes the task and stops its poller; the video
    URL is recorded only when the reply has one, otherwise the task keeps the
    one it had.
   */
  lemma CompletedReportCompletes(s: State, id: string, reply: Reply)
    requires Has(s.tasks, id)
    requires IsStatusReport(reply) && ReportedStatus(reply) == Completed
    ensures var r := QueryTask(s, id, reply);
            var k := FindIndex(s.tasks, id).value;
            var url := Get(ParseResponse(reply.response), "video_url");
            && r.tasks[k].status == Completed
            && r.tasks[k].videoUrl == (if url.Truthy() then Some(url) else s.tasks[k].videoUrl)
            && r.tasks[k].errorMessage == s.tasks[k].errorMessage
            && id !in r.pollers
  {
  }

  /** Any other status is copied with its progress, and polling goes on. */
  lemma OrdinaryReportKeepsPolling(s: State, id: string, reply: Reply)
    requires Has(s.tasks, id)
    requires IsStatusReport(reply) && !IsTerminal(ReportedStatus(reply))
    ensures var r := QueryTask(s, id, reply);
            var k := FindIndex(s.tasks, id).value;
            && r.tasks[k].status == ReportedStatus(reply)
            && r.tasks[k].progress == Or(Get(ParseResponse(reply.response), "progress"), Num(0.0))
            && r.tasks[k].videoUrl == s.tasks[k].videoUrl
            && r.tasks[k].errorMessage == s.tasks[k].errorMessage
            && r.pollers == s.pollers
  {
  }

  /**
    A poll answered `{error: {message: "quota exceeded"}}` fails the task
    with the message "quota exceeded" and stops its poller.
   */
  lemma QuotaFailsTask(s: State, id: string, resp: HttpResponse)
    requires Has(s.tasks, id)
    requires resp.ok && DeclaresJson(resp) && resp.body.Body?
    requires resp.body.json == Some(Single("error", Single("message", Str("quota exceeded"))))
    ensures var r := QueryTask(s, id, Replied(resp));
            var k := FindIndex(s.tasks, id).value;
            && r.tasks[k].status == Failed
            && r.tasks[k].errorMessage == Some(Str("quota exceeded"))
            && id !in r.pollers
  {
    QuotaScenario(TaskFailedFallback(id));
  }

  /** Replies never change what a task was submitted with, so its routing key is replayed unchanged. */
  lemma QueryKeepsSubmissionFields(s: State, id: string, reply: Reply)
    ensures var r := QueryTask(s, id, reply);
            forall i :: 0 <= i < |s.tasks| ==>
              && r.tasks[i].routingKey == s.tasks[i].routingKey
              && r.tasks[i].prompt == s.tasks[i].prompt
              && r.tasks[i].size == s.tasks[i].size
  {
  }

  /** The `keyidx` header of a status or content request: the recorded key, or blank for a record without one. */
  datatype KeyHeader = KeyIdx(k: int) | Blank

  /** `task.hasOwnProperty('apiKey') ? task.apiKey : ""`. */
  function KeyHeaderOf(t: Task): KeyHeader {
    match t.routingKey
    case Some(key) => KeyIdx(key)
    case None => Blank
  }

  /**
    The `keyidx` header `queryTask` would send for the id, taken from the
    first task carrying it; None when the task is absent and no request is made.
   */
  function QueryKeyHeader(s: State, id: string): (h: Option<KeyHeader>)
    ensures h.None? <==> !Has(s.tasks, id)
    ensures h.Some? ==>
              exists i :: 0 <= i < |s.tasks| && s.tasks[i].id == id && h.value == KeyHeaderOf(s.tasks[i])
                          && forall j :: 0 <= j < i ==> s.tasks[j].id != id
  {
    match FindIndex(s.tasks, id)
    case None => None
    case Some(k) => Some(KeyHeaderOf(s.tasks[k]))
  }

  /**
    No reply changes the `keyidx` header later queries send for any task,
    whether it arrives for a task still in the store or for one deleted
    while the request was in flight.
   */
  lemma QueryKeepsKeyHeader(s: State, id: string, queried: string, reply: Reply)
    ensures QueryKeyHeader(ApplyReply(s, queried, reply), id) == QueryKeyHeader(s, id)
    ensures QueryKeyHeader(QueryTask(s, queried, reply), id) == QueryKeyHeader(s, id)
  {
    FindIndexDependsOnIds(ApplyReply(s, queried, reply).tasks, s.tasks, id);
  }

  /** Deleting another task does not change the `keyidx` header sent for this one. */
  lemma RemoveKeepsOtherKeyHeader(s: State, id: string, other: string, confirmed: bool)
    requires other != id
    ensures QueryKeyHeader(RemoveTask(s, other, confirmed), id) == QueryKeyHeader(s, id)
  {
    if confirmed {
      RemoveOtherKeepsFirst(s.tasks, other, id);
    }
  }

  /** A reply, applied whenever it arrives, keeps every registered poller attached to a task. */
  lemma ApplyReplyPreservesTracked(s: State, id: string, reply: Reply)
    requires Tracked(s)
    ensures Tracked(ApplyReply(s, id, reply))
  {
    var r := ApplyReply(s, id, reply);
    forall x | x in r.pollers ensures x in TaskIds(r.tasks) {
      var i :| 0 <= i < |s.tasks| && s.tasks[i].id == x;
      assert r.tasks[i].id == x;
    }
  }

  /** Reconciliation keeps every registered poller attached to a task. */
  lemma QueryPreservesTracked(s: State, id: string, reply: Reply)
    requires Tracked(s)
    ensures Tracked(QueryTask(s, id, reply))
  {
    if Has(s.tasks, id) {
      ApplyReplyPreservesTracked(s, id, reply);
    }
  }

  /**
    Terminal states are not final in this controller: a `failed` task that is
    queried again (its refresh button stays available) and told `processing`
    goes back to `processing`.
   */
  lemma FailedTaskCanBeRevived()
    ensures var t := Task("a", TaskKind, "p", Failed, Num(0.0), ModelName, "1280x720", Some(0), None, Some(Str("x")));
            var body := Single("status", Str("processing"));
            var reply := Replied(HttpResponse(true, Some("application/json"), Body("{\"status\":\"processing\"}", Some(body))));
            QueryTask(State([t], {}), "a", reply).tasks[0].status == Str("processing")
  {
    var body := Single("status", Str("processing"));
    var resp := HttpResponse(true, Some("application/json"), Body("{\"status\":\"processing\"}", Some(body)));
    assert JsonMediaType <= resp.contentType.value[0..];
    assert DeclaresJson(resp);
  }

  /**
    A completed reply `{status: "completed", video_url: "https://x/a.mp4"}`
    for task "abc" completes it with that URL and stops its poller.
   */
  lemma CompletedScenario(s: State, resp: HttpResponse)
    requires Has(s.tasks, "abc")
    requires resp.ok && DeclaresJson(resp) && resp.body.Body?
    requires resp.body.json == Some(Obj(map["status" := Completed, "video_url" := Str("https://x/a.mp4")]))
    ensures var r := QueryTask(s, "abc", Replied(resp));
            var k := FindIndex(s.tasks, "abc").value;
            && r.tasks[k].status == Completed
            && r.tasks[k].videoUrl == Some(Str("https://x/a.mp4"))
            && "abc" !in r.pollers
  {
    CompletedReportCompletes(s, "abc", Replied(resp));
  }

  // ---------------------------------------------------------------------------
  // Deletion

  /**
    `removeTask` once the user has answered the confirmation: on `true`
    every task with the id is dropped, the others keep their order, and the
    id's poller is stopped; on `false` nothing changes.
   */
  function RemoveTask(s: State, id: string, confirmed: bool): (r: State)
    ensures !confirmed ==> r == s
    ensures confirmed ==> !Has(r.tasks, id) && id !in r.pollers
    ensures confirmed ==> r.tasks == RemoveById(s.tasks, id) && r.pollers == StopPolling(s.pollers, id)
  {
    if !confirmed then s else State(RemoveById(s.tasks, id), StopPolling(s.pollers, id))
  }

  /** Deletion keeps every registered poller attached to a task. */
  lemma RemovePreservesTracked(s: State, id: string, confirmed: bool)
    requires Tracked(s)
    ensures Tracked(RemoveTask(s, id, confirmed))
  {
    if confirmed {
      var r := RemoveTask(s, id, confirmed);
      forall x | x in r.pollers ensures x in TaskIds(r.tasks) {
        var i :| 0 <= i < |s.tasks| && s.tasks[i].id == x;
        assert s.tasks[i] in s.tasks;
        assert s.tasks[i] in r.tasks;
      }
    }
  }

  /**
    A deleted task stays deleted: a later tick finds nothing to query, and a
    reply that was already in flight leaves the task list as it is.
   */
  lemma NoResurrectionAfterRemove(s: State, id: string, reply: Reply)
    ensures var d := RemoveTask(s, id, true);
            && QueryTask(d, id, reply) == d
            && ApplyReply(d, id, reply).tasks == d.tasks
            && !Has(ApplyReply(d, id, reply).tasks, id)
  {
  }

  // ---------------------------------------------------------------------------
  // Refresh all

  /** `refreshAllTasks`' selection: the ids of the tasks that are neither completed nor failed, in list order. */
  function RefreshTargets(tasks: seq<Task>): (r: seq<string>)
    ensures |r| <= |tasks|
    ensures forall x :: x in r ==> exists i :: 0 <= i < |tasks| && tasks[i].id == x && !IsTerminal(tasks[i].status)
    ensures forall i :: 0 <= i < |tasks| && !IsTerminal(tasks[i].status) ==> tasks[i].id in r
    ensures r == [] <==> forall i :: 0 <= i < |tasks| ==> IsTerminal(tasks[i].status)
  {
    if |tasks| == 0 then []
    else
      var rest := RefreshTargets(tasks[1..]);
      assert forall x :: x in rest ==> exists i :: 0 <= i < |tasks| && tasks[i].id == x && !IsTerminal(tasks[i].status) by {
        forall x | x in rest ensures exists i :: 0 <= i < |tasks| && tasks[i].id == x && !IsTerminal(tasks[i].status) {
          var j :| 0 <= j < |tasks[1..]| && tasks[1..][j].id == x && !IsTerminal(tasks[1..][j].status);
          assert tasks[j + 1] == tasks[1..][j];
        }
      }
      if IsTerminal(tasks[0].status) then rest else [tasks[0].id] + rest
  }

  /**
    The selection works piecewise: every unfinished task is selected once,
    in list order, even when two of them share an id.
   */
  lemma {:induction false} RefreshTargetsKeepsOrder(a: seq<Task>, b: seq<Task>)
    ensures RefreshTargets(a + b) == RefreshTargets(a) + RefreshTargets(b)
  {
    if |a| > 0 {
      var ab := a + b;
      assert ab[0] == a[0];
      assert ab[1..] == a[1..] + b;
      RefreshTargetsKeepsOrder(a[1..], b);
    } else {
      assert a + b == b;
    }
  }

  /** Applies the replies, one per id, in order. */
  function ApplyReplies(s: State, ids: seq<string>, replies: seq<Reply>): (r: State)
    requires |replies| == |ids|
    ensures |r.tasks| == |s.tasks|
    ensures forall i :: 0 <= i < |r.tasks| ==> r.tasks[i].id == s.tasks[i].id
    ensures r.pollers <= s.pollers
    ensures forall x :: x in s.pollers - r.pollers ==> x in ids
    ensures forall i :: 0 <= i < |r.tasks| ==> r.tasks[i].routingKey == s.tasks[i].routingKey
    ensures forall i :: 0 <= i < |r.tasks| && s.tasks[i].id !in ids ==> r.tasks[i] == s.tasks[i]
    decreases |ids|
  {
    if |ids| == 0 then s
    else
      var s1 := ApplyReply(s, ids[0], replies[0]);
      var r := ApplyReplies(s1, ids[1..], replies[1..]);
      assert forall x :: x in ids[1..] ==> x in ids;
      r
  }

  /**
    `refreshAllTasks`: one query per unfinished task. Every query passes its
    presence check when the button is pressed, before any reply arrives; the
    replies are then applied in list order (other orders are other
    interleavings of the same replies). With no unfinished task nothing
    happens. No task is added, dropped or renamed, no poller is started, and
    only the pollers of refreshed tasks can stop.
   */
  function RefreshAll(s: State, replies: seq<Reply>): (r: State)
    requires |replies| == |RefreshTargets(s.tasks)|
    ensures RefreshTargets(s.tasks) == [] ==> r == s
    ensures |r.tasks| == |s.tasks|
    ensures forall i :: 0 <= i < |r.tasks| ==> r.tasks[i].id == s.tasks[i].id
    ensures r.pollers <= s.pollers
    ensures forall x :: x in s.pollers - r.pollers ==> x in RefreshTargets(s.tasks)
    ensures forall i :: 0 <= i < |r.tasks| && s.tasks[i].id !in RefreshTargets(s.tasks) ==> r.tasks[i] == s.tasks[i]
  {
    ApplyReplies(s, RefreshTargets(s.tasks), replies)
  }

  /** Refreshing keeps every registered poller attached to a task. */
  lemma RefreshPreservesTracked(s: State, replies: seq<Reply>)
    requires |replies| == |RefreshTargets(s.tasks)|
    requires Tracked(s)
    ensures Tracked(RefreshAll(s, replies))
  {
    var r := RefreshAll(s, replies);
    forall x | x in r.pollers ensures x in TaskIds(r.tasks) {
      var i :| 0 <= i < |s.tasks| && s.tasks[i].id == x;
      assert r.tasks[i].id == x;
    }
  }

  /** No id occurs twice. */
  predicate DistinctIds(ids: seq<string>) {
    forall i, j :: 0 <= i < j < |ids| ==> ids[i] != ids[j]
  }

  /**
    With unique task ids and distinct queried ids, applying the replies
    merges reply j's updates into the task carrying ids[j], and that id's
    poller survives exactly when it was running and reply j does not stop it.
   */
  lemma {:induction false} ApplyRepliesEffect(s: State, ids: seq<string>, replies: seq<Reply>)
    requires |replies| == |ids|
    requires UniqueIds(s.tasks) && DistinctIds(ids)
    ensures var r := ApplyReplies(s, ids, replies);
            && (forall i, j :: 0 <= i < |s.tasks| && 0 <= j < |ids| && s.tasks[i].id == ids[j] ==>
                  r.tasks[i] == Merge(s.tasks[i], Reconcile(ids[j], replies[j]).updates))
            && (forall j :: 0 <= j < |ids| ==>
                  (ids[j] in r.pollers <==> ids[j] in s.pollers && !Reconcile(ids[j], replies[j]).stop))
    decreases |ids|
  {
    if |ids| > 0 {
      var s1 := ApplyReply(s, ids[0], replies[0]);
      var r := ApplyReplies(s, ids, replies);
      assert r == ApplyReplies(s1, ids[1..], replies[1..]);
      UpdateUniqueTask(s.tasks, ids[0], Reconcile(ids[0], replies[0]).updates);
      assert UniqueIds(s1.tasks) by {
        forall a, b | 0 <= a < b < |s1.tasks| ensures s1.tasks[a].id != s1.tasks[b].id {
          assert s1.tasks[a].id == s.tasks[a].id && s1.tasks[b].id == s.tasks[b].id;
        }
      }
      assert ids[0] !in ids[1..];
      ApplyRepliesEffect(s1, ids[1..], replies[1..]);
      forall i, j | 0 <= i < |s.tasks| && 0 <= j < |ids| && s.tasks[i].id == ids[j]
        ensures r.tasks[i] == Merge(s.tasks[i], Reconcile(ids[j], replies[j]).updates)
      {
        if j == 0 {
          assert s1.tasks[i].id !in ids[1..];
        } else {
          assert ids[1..][j - 1] == ids[j];
          assert s1.tasks[i] == s.tasks[i];
        }
      }
      forall j | 0 <= j < |ids|
        ensures ids[j] in r.pollers <==> ids[j] in s.pollers && !Reconcile(ids[j], replies[j]).stop
      {
        if j > 0 {
          assert ids[1..][j - 1] == ids[j];
        }
      }
    }
  }

  /** With unique task ids, refresh-all queries each task at most once. */
  lemma {:induction false} RefreshTargetsDistinct(tasks: seq<Task>)
    requires UniqueIds(tasks)
    ensures DistinctIds(RefreshTargets(tasks))
  {
    if |tasks| > 0 {
      var rest := RefreshTargets(tasks[1..]);
      assert UniqueIds(tasks[1..]) by {
        forall a, b | 0 <= a < b < |tasks[1..]| ensures tasks[1..][a].id != tasks[1..][b].id {
          assert tasks[1..][a] == tasks[a + 1] && tasks[1..][b] == tasks[b + 1];
        }
      }
      RefreshTargetsDistinct(tasks[1..]);
      if !IsTerminal(tasks[0].status) {
        assert tasks[0].id !in rest;
        var r := RefreshTargets(tasks);
        assert r == [tasks[0].id] + rest;
        forall a, b | 0 <= a < b < |r| ensures r[a] != r[b] {
          assert r[b] == rest[b - 1];
          if a > 0 {
            assert r[a] == rest[a - 1];
          }
        }
      }
    }
  }

  /**
    With unique ids, refresh-all gives every unfinished task its own reply:
    the reply's updates are merged into it, and its poller survives exactly
    when it was running and the reply does not stop it; completed and failed
    tasks are left as they are.
   */
  lemma RefreshAllQueriesEveryTarget(s: State, replies: seq<Reply>)
    requires |replies| == |RefreshTargets(s.tasks)|
    requires UniqueIds(s.tasks)
    ensures var targets := RefreshTargets(s.tasks);
            var r := RefreshAll(s, replies);
            && (forall i :: 0 <= i < |s.tasks| && IsTerminal(s.tasks[i].status) ==> r.tasks[i] == s.tasks[i])
            && (forall i, j :: 0 <= i < |s.tasks| && 0 <= j < |targets| && s.tasks[i].id == targets[j] ==>
                  r.tasks[i] == Merge(s.tasks[i], Reconcile(targets[j], replies[j]).updates))
            && (forall j :: 0 <= j < |targets| ==>
                  (targets[j] in r.pollers <==> targets[j] in s.pollers && !Reconcile(targets[j], replies[j]).stop))
  {
    var targets := RefreshTargets(s.tasks);
    RefreshTargetsDistinct(s.tasks);
    ApplyRepliesEffect(s, targets, replies);
  }

  /** Refresh-all does not change the `keyidx` header sent for any task. */
  lemma RefreshKeepsKeyHeader(s: State, id: string, replies: seq<Reply>)
    requires |replies| == |RefreshTargets(s.tasks)|
    ensures QueryKeyHeader(RefreshAll(s, replies), id) == QueryKeyHeader(s, id)
  {
    FindIndexDependsOnIds(RefreshAll(s, replies).tasks, s.tasks, id);
  }
}

=== FILE: pollers.dfy ===
/**
  The poller registry (`pollIntervals`). A registered id stands for a live
  interval timer that queries the task every five seconds; the timer handle
  itself is not modelled.
 */
module Pollers {

  type Registry = set<string>

  /** `startPolling`: registers the id; an id already registered keeps its one timer. */
  function StartPolling(p: Registry, id: string): (r: Registry)
    ensures id in r && p <= r && r - {id} <= p
    ensures id in p ==> r == p
  {
    p + {id}
  }

  /** `stopPolling`: unregisters exactly that id; an unregistered id is a no-op. */
  function StopPolling(p: Registry, id: string): (r: Registry)
    ensures id !in r && r <= p && p - r <= {id}
    ensures id !in p ==> r == p
  {
    p - {id}
  }

  /** Starting twice is starting once, and stopping undoes a start on a fresh id. */
  lemma StartStopLaws(p: Registry, id: string)
    ensures StartPolling(StartPolling(p, id), id) == StartPolling(p, id)
    ensures id !in p ==> StopPolling(StartPolling(p, id), id) == p
    ensures StopPolling(StopPolling(p, id), id) == StopPolling(p, id)
  {
  }
}

=== FILE: reload.dfy ===
/**
  Start-up from the persisted task list: completed tasks are shown again,
  failed ones are left as they are, and every other task gets a poller in
  the fresh registry of the new page.
 */
module Reload {
  import opened Json
  import opened TaskStore
  import opened Pollers
  import opened Lifecycle

  /** Whether start-up resumes polling for a task: neither `completed` nor `failed`. */
  predicate Resumes(t: Task) {
    !IsTerminal(t.status)
  }

  /** The ids start-up polls. */
  function ResumedIds(tasks: seq<Task>): set<string> {
    set i | 0 <= i < |tasks| && Resumes(tasks[i]) :: tasks[i].id
  }

  /** The ids whose result start-up shows again, in list order. */
  function ShownIds(tasks: seq<Task>): (r: seq<string>)
    ensures forall x :: x in r <==> exists i :: 0 <= i < |tasks| && tasks[i].id == x && tasks[i].status == Completed
  {
    if |tasks| == 0 then []
    else
      var init := ShownIds(tasks[..|tasks| - 1]);
      var last := tasks[|tasks| - 1];
      assert forall i :: 0 <= i < |tasks| - 1 ==> tasks[..|tasks| - 1][i] == tasks[i];
      if last.status == Completed then init + [last.id] else init
  }

  /** Start-up shows the completed tasks of each part of the list in order, part after part. */
  lemma {:induction false} ShownIdsKeepsOrder(a: seq<Task>, b: seq<Task>)
    ensures ShownIds(a + b) == ShownIds(a) + ShownIds(b)
    decreases |b|
  {
    if |b| == 0 {
      assert a + b == a;
    } else {
      var b0 := b[..|b| - 1];
      var ab := a + b;
      assert ab[..|ab| - 1] == a + b0;
      assert ab[|ab| - 1] == b[|b| - 1];
      ShownIdsKeepsOrder(a, b0);
    }
  }

  lemma ResumedIdsSnoc(tasks: seq<Task>, t: Task)
    ensures ResumedIds(tasks + [t]) == ResumedIds(tasks) + (if Resumes(t) then {t.id} else {})
  {
    var ts := tasks + [t];
    forall x | x in ResumedIds(ts) ensures x in ResumedIds(tasks) + (if Resumes(t) then {t.id} else {}) {
      var i :| 0 <= i < |ts| && Resumes(ts[i]) && ts[i].id == x;
      if i < |tasks| {
        assert ts[i] == tasks[i];
      }
    }
    forall x | x in ResumedIds(tasks) ensures x in ResumedIds(ts) {
      var i :| 0 <= i < |tasks| && Resumes(tasks[i]) && tasks[i].id == x;
      assert ts[i] == tasks[i];
    }
    if Resumes(t) {
      assert ts[|tasks|] == t;
    }
  }

  /**
    The start-up loop over the saved list (an empty list when nothing was
    stored or the stored text did not parse). The store becomes the saved
    list, the registry holds exactly the ids of the tasks that are neither
    completed nor failed, and the completed tasks are shown in order.
   */
  method RestoreTasks(saved: seq<Task>) returns (s: State, shown: seq<string>)
    ensures s.tasks == saved
    ensures s.pollers == ResumedIds(saved)
    ensures shown == ShownIds(saved)
  {
    var pollers: set<string> := {};
    shown := [];
    var i := 0;
    while i < |saved|
      invariant 0 <= i <= |saved|
      invariant pollers == ResumedIds(saved[..i])
      invariant shown == ShownIds(saved[..i])
    {
      var t := saved[i];
      assert saved[..i + 1] == saved[..i] + [t];
      ResumedIdsSnoc(saved[..i], t);
      assert saved[..i + 1][..i] == saved[..i];
      if t.status == Completed {
        shown := shown + [t.id];
      } else if t.status != Failed {
        pollers := StartPolling(pollers, t.id);
      }
      i := i + 1;
    }
    assert saved[..i] == saved;
    s := State(saved, pollers);
  }

  /** After start-up every poller belongs to a task, so the store invariant holds from the beginning. */
  lemma RestoreIsTracked(saved: seq<Task>)
    ensures Tracked(State(saved, ResumedIds(saved)))
  {
  }

  /**
    With unique ids, a task gets a poller after start-up exactly when it is
    neither completed nor failed; in particular completed and failed tasks
    get none.
   */
  lemma RestorePollsExactlyUnfinished(saved: seq<Task>, i: int)
    requires UniqueIds(saved)
    requires 0 <= i < |saved|
    ensures saved[i].id in ResumedIds(saved) <==> !IsTerminal(saved[i].status)
  {
    if saved[i].id in ResumedIds(saved) {
      var j :| 0 <= j < |saved| && Resumes(saved[j]) && saved[j].id == saved[i].id;
      assert j == i;
    }
  }

  /** Start-up and refresh-all select the same tasks. */
  lemma RestoreMatchesRefreshSelection(saved: seq<Task>)
    ensures ResumedIds(saved) == set x | x in RefreshTargets(saved)
  {
  }

  /** Persisted `{id: "x", status: "processing"}` is polled after start-up and `{id: "y", status: "failed"}` is not. */
  lemma ReloadScenario(x: Task, y: Task)
    requires x.id == "x" && x.status == Str("processing")
    requires y.id == "y" && y.status == Failed
    ensures "x" in ResumedIds([x, y]) && "y" !in ResumedIds([x, y])
  {
    RestorePollsExactlyUnfinished([x, y], 0);
    RestorePollsExactlyUnfinished([x, y], 1);
  }
}

=== FILE: response.dfy ===
/**
  Turning an HTTP response into one JavaScript value (`parseResponse`). The
  body is read as text; when the response declares JSON the text is parsed,
  and the outcome of `JSON.parse` on that text is carried alongside it because
  JSON parsing itself is not modelled.
 */
module Response {
  import opened Wrappers
  import opened Json
  import opened ErrorMessage

  /** A response body: unreadable (the stream failed), or its text and the result of parsing it as JSON. */
  datatype Body =
    | Unreadable
    | Body(text: string, json: Option<JValue>)

  /** What the controller sees of an HTTP response. */
  datatype HttpResponse = HttpResponse(ok: bool, contentType: Option<string>, body: Body)

  /** The message substituted when a body cannot be read or parsed. */
  const ParseFailureMessage: string := "无法解析服务器响应"

  const JsonMediaType: string := "application/json"

  /** `s.includes(sub)`. */
  predicate Contains(s: string, sub: string) {
    exists i :: 0 <= i <= |s| && sub <= s[i..]
  }

  /** `response.headers.get('content-type') || ''` includes "application/json". */
  predicate DeclaresJson(resp: HttpResponse) {
    Contains(resp.contentType.GetOr(""), JsonMediaType)
  }

  /**
    The value `parseResponse` resolves to: the parsed JSON for a JSON response,
    `{error: text}` for a non-empty non-JSON body, `{}` for an empty one, and
    `{error: ParseFailureMessage}` whenever reading or parsing fails.
   */
  function ParseResponse(resp: HttpResponse): (r: JValue)
    // only a JSON body that is literally `null` yields a value without properties
    ensures r.Nullish() ==> DeclaresJson(resp) && resp.body.Body? && resp.body.json == Some(r)
    // a body that declares JSON and parses is passed through unchanged
    ensures DeclaresJson(resp) && resp.body.Body? && resp.body.json.Some? ==> r == resp.body.json.value
    // whatever goes wrong reading or parsing is reported as an error field
    ensures (resp.body.Unreadable? || (DeclaresJson(resp) && resp.body.json.None?)) ==>
              r == Single("error", Str(ParseFailureMessage))
    // a non-JSON body is an error exactly when it is non-empty, and its text is that error
    ensures !DeclaresJson(resp) && resp.body.Body? ==>
              r.Obj? && (Get(r, "error").Truthy() <==> resp.body.text != [])
              && (resp.body.text != [] ==> Get(r, "error") == Str(resp.body.text))
  {
    match resp.body
    case Unreadable => Single("error", Str(ParseFailureMessage))
    case Body(text, json) =>
      if DeclaresJson(resp) then
        match json
        case Some(v) => v
        case None => Single("error", Str(ParseFailureMessage))
      else if text != [] then Single("error", Str(text))
      else EmptyObject
  }

  /** A non-empty plain-text body becomes the reported message, ahead of any fallback. */
  lemma PlainTextIsTheMessage(resp: HttpResponse, fallback: string)
    requires !DeclaresJson(resp) && resp.body.Body? && resp.body.text != []
    ensures ExtractErrorMessage(ParseResponse(resp), fallback) == Str(resp.body.text)
  {
  }

  /** An empty plain-text body carries no message, so the fallback is reported. */
  lemma EmptyBodyReportsFallback(resp: HttpResponse, fallback: string)
    requires !DeclaresJson(resp) && resp.body.Body? && resp.body.text == []
    ensures ParseResponse(resp) == EmptyObject
    ensures ExtractErrorMessage(ParseResponse(resp), fallback) == Str(fallback)
  {
  }

  /** A missing content-type header is treated as an empty one, so the body is read as text. */
  lemma MissingContentTypeIsText(ok: bool, body: Body)
    ensures !DeclaresJson(HttpResponse(ok, None, body))
  {
  }
}

=== FILE: task_store.dfy ===
/**
  The ordered task collection, newest first (`addTask`, `updateTask`, and the
  filtering step of `removeTask`).
 */
module TaskStore {
  import opened Wrappers
  import opened Json

  /**
    One tracked generation job. Fields written from a server reply keep the
    reply's JavaScript value, since the controller stores it unchecked;
    `routingKey` is the `apiKey` recorded at submission, absent on records
    that never had one; `videoUrl` and `errorMessage` are absent until a reply
    sets them.
   */
  datatype Task = Task(
    id: string,
    kind: string,
    prompt: string,
    status: JValue,
    progress: JValue,
    model: string,
    size: string,
    routingKey: Option<int>,
    videoUrl: Option<JValue>,
    errorMessage: Option<JValue>)

  /** The fields a status reply may overwrite (`Object.assign` of a partial record); None leaves a field as it is. */
  datatype Updates = Updates(
    status: Option<JValue>,
    progress: Option<JValue>,
    videoUrl: Option<JValue>,
    errorMessage: Option<JValue>)

  const NoUpdates: Updates := Updates(None, None, None, None)

  /** `Object.assign(task, updates)`. */
  function Merge(t: Task, u: Updates): (r: Task)
    ensures r.id == t.id && r.kind == t.kind && r.prompt == t.prompt
    ensures r.model == t.model && r.size == t.size && r.routingKey == t.routingKey
    ensures u.status.Some? ==> r.status == u.status.value
    ensures u.progress.Some? ==> r.progress == u.progress.value
    ensures u.videoUrl.Some? ==> r.videoUrl == u.videoUrl
    ensures u.errorMessage.Some? ==> r.errorMessage == u.errorMessage
    ensures u.status.None? ==> r.status == t.status
    ensures u.progress.None? ==> r.progress == t.progress
    ensures u.videoUrl.None? ==> r.videoUrl == t.videoUrl
    ensures u.errorMessage.None? ==> r.errorMessage == t.errorMessage
  {
    t.(status := u.status.GetOr(t.status),
       progress := u.progress.GetOr(t.progress),
       videoUrl := if u.videoUrl.Some? then u.videoUrl else t.videoUrl,
       errorMessage := if u.errorMessage.Some? then u.errorMessage else t.errorMessage)
  }

  /** Merging nothing changes nothing; merging the same fields twice is merging them once. */
  lemma MergeLaws(t: Task, u: Updates)
    ensures Merge(t, NoUpdates) == t
    ensures Merge(Merge(t, u), u) == Merge(t, u)
  {
  }

  predicate Has(tasks: seq<Task>, id: string) {
    exists i :: 0 <= i < |tasks| && tasks[i].id == id
  }

  /** No two tasks carry the same id. */
  predicate UniqueIds(tasks: seq<Task>) {
    forall i, j :: 0 <= i < j < |tasks| ==> tasks[i].id != tasks[j].id
  }

  function TaskIds(tasks: seq<Task>): set<string> {
    set i | 0 <= i < |tasks| :: tasks[i].id
  }

  /** `tasks.find(t => t.id === id)`, as an index: the first task carrying the id. */
  function FindIndex(tasks: seq<Task>, id: string): (r: Option<nat>)
    ensures r.None? <==> !Has(tasks, id)
    ensures r.Some? ==> r.value < |tasks| && tasks[r.value].id == id
    ensures r.Some? ==> forall j :: 0 <= j < r.value ==> tasks[j].id != id
  {
    if |tasks| == 0 then None
    else if tasks[0].id == id then Some(0)
    else
      match FindIndex(tasks[1..], id)
      case None => None
      case Some(k) => Some(k + 1)
  }

  /** The lookup depends on the ids alone, so updates that keep every id keep every lookup. */
  lemma {:induction false} FindIndexDependsOnIds(a: seq<Task>, b: seq<Task>, id: string)
    requires |a| == |b|
    requires forall i :: 0 <= i < |a| ==> a[i].id == b[i].id
    ensures FindIndex(a, id) == FindIndex(b, id)
  {
    if |a| > 0 && a[0].id != id {
      FindIndexDependsOnIds(a[1..], b[1..], id);
    }
  }

  /** `addTask`: the new task goes in front, the others follow in their order. */
  function AddTask(tasks: seq<Task>, t: Task): (r: seq<Task>)
    ensures |r| == |tasks| + 1 && r[0] == t && r[1..] == tasks
    ensures FindIndex(r, t.id) == Some(0)
  {
    [t] + tasks
  }

  /**
    `updateTask`: merges the updates into the first task with the id and
    leaves every other task alone; an absent id changes nothing. No task is
    ever added, dropped or renamed.
   */
  function UpdateTask(tasks: seq<Task>, id: string, u: Updates): (r: seq<Task>)
    ensures |r| == |tasks|
    ensures forall i :: 0 <= i < |r| ==> r[i].id == tasks[i].id
    ensures !Has(tasks, id) ==> r == tasks
    ensures Has(tasks, id) ==>
              var k := FindIndex(tasks, id).value;
              r[k] == Merge(tasks[k], u) && forall i :: 0 <= i < |r| && i != k ==> r[i] == tasks[i]
  {
    match FindIndex(tasks, id)
    case None => tasks
    case Some(k) => tasks[k := Merge(tasks[k], u)]
  }

  /** With unique ids, an update merges into the one task carrying the id and into no other. */
  lemma UpdateUniqueTask(tasks: seq<Task>, id: string, u: Updates)
    requires UniqueIds(tasks)
    ensures forall i :: 0 <= i < |tasks| ==>
              UpdateTask(tasks, id, u)[i] == if tasks[i].id == id then Merge(tasks[i], u) else tasks[i]
  {
  }

  /** How many tasks carry the id. */
  function Occurrences(tasks: seq<Task>, id: string): (n: nat)
    ensures n <= |tasks|
    ensures n == 0 <==> !Has(tasks, id)
  {
    if |tasks| == 0 then 0
    else (if tasks[0].id == id then 1 else 0) + Occurrences(tasks[1..], id)
  }

  /**
    `tasks.filter(t => t.id !== id)`: no task with the id survives, every
    other task does, and nothing is invented.
   */
  function RemoveById(tasks: seq<Task>, id: string): (r: seq<Task>)
    ensures !Has(r, id)
    ensures forall t :: t in tasks && t.id != id ==> t in r
    ensures forall t :: t in r ==> t in tasks
    ensures |r| == |tasks| - Occurrences(tasks, id)
    ensures !Has(tasks, id) ==> r == tasks
  {
    if |tasks| == 0 then []
    else if tasks[0].id == id then RemoveById(tasks[1..], id)
    else [tasks[0]] + RemoveById(tasks[1..], id)
  }

  /** Removal works piecewise, so the surviving tasks keep their relative order. */
  lemma {:induction false} RemoveByIdKeepsOrder(a: seq<Task>, b: seq<Task>, id: string)
    ensures RemoveById(a + b, id) == RemoveById(a, id) + RemoveById(b, id)
  {
    if |a| > 0 {
      var ab := a + b;
      assert ab[0] == a[0];
      assert ab[1..] == a[1..] + b;
      RemoveByIdKeepsOrder(a[1..], b, id);
      if a[0].id == id {
        assert RemoveById(ab, id) == RemoveById(a[1..] + b, id);
        assert RemoveById(a, id) == RemoveById(a[1..], id);
      } else {
        assert RemoveById(ab, id) == [a[0]] + RemoveById(a[1..] + b, id);
        assert RemoveById(a, id) == [a[0]] + RemoveById(a[1..], id);
      }
    } else {
      assert a + b == b;
    }
  }

  /** Dropping the tasks of another id keeps the first task carrying `id`, unchanged. */
  lemma {:induction false} RemoveOtherKeepsFirst(tasks: seq<Task>, other: string, id: string)
    requires other != id
    ensures var r := RemoveById(tasks, other);
            && (FindIndex(r, id).None? <==> FindIndex(tasks, id).None?)
            && (FindIndex(tasks, id).Some? ==> r[FindIndex(r, id).value] == tasks[FindIndex(tasks, id).value])
  {
    if |tasks| > 0 && tasks[0].id != id {
      var rest := RemoveById(tasks[1..], other);
      RemoveOtherKeepsFirst(tasks[1..], other, id);
      if tasks[0].id != other {
        var r := RemoveById(tasks, other);
        assert r == [tasks[0]] + rest;
        assert r[1..] == rest;
      }
    }
  }
}

=== FILE: text.dfy ===
/** `String.prototype.trim`, as used on the prompt before submission. */
module Text {

  /** ECMAScript WhiteSpace and LineTerminator code points, the characters `trim` removes. */
  predicate IsWhiteSpace(c: char) {
    || c in {'\t', '\n', '\U{000B}', '\U{000C}', '\r', ' ', '\U{00A0}', '\U{1680}'}
    || ('\U{2000}' <= c <= '\U{200A}')
    || c in {'\U{2028}', '\U{2029}', '\U{202F}', '\U{205F}', '\U{3000}', '\U{FEFF}'}
  }

  predicate AllWhiteSpace(s: string) {
    forall i :: 0 <= i < |s| ==> IsWhiteSpace(s[i])
  }

  /** Drops leading white space. */
  function TrimStart(s: string): (r: string)
    ensures |r| <= |s| && r == s[|s| - |r|..]
    ensures r == [] || !IsWhiteSpace(r[0])
    ensures AllWhiteSpace(s[..|s| - |r|])
  {
    if |s| > 0 && IsWhiteSpace(s[0]) then TrimStart(s[1..]) else s
  }

  /** Drops trailing white space. */
  function TrimEnd(s: string): (r: string)
    ensures |r| <= |s| && r == s[..|r|]
    ensures r == [] || !IsWhiteSpace(r[|r| - 1])
    ensures AllWhiteSpace(s[|r|..])
  {
    if |s| > 0 && IsWhiteSpace(s[|s| - 1]) then TrimEnd(s[..|s| - 1]) else s
  }

  /**
    `s.trim()`: the longest infix of `s` that neither starts nor ends with
    white space; everything cut off is white space.
   */
  function Trim(s: string): (r: string)
    ensures exists k :: 0 <= k <= |s| - |r| && r == s[k..k + |r|]
              && AllWhiteSpace(s[..k]) && AllWhiteSpace(s[k + |r|..])
    ensures r == [] || (!IsWhiteSpace(r[0]) && !IsWhiteSpace(r[|r| - 1]))
  {
    var a := TrimStart(s);
    var r := TrimEnd(a);
    var k := |s| - |a|;
    assert s[k..k + |r|] == r;
    assert s[k + |r|..] == a[|r|..];
    r
  }

  /** The trimmed prompt is empty exactly when the prompt is nothing but white space. */
  lemma {:induction false} TrimEmptyIffBlank(s: string)
    ensures Trim(s) == [] <==> AllWhiteSpace(s)
  {
    var a := TrimStart(s);
    if Trim(s) == [] {
      var k := |s| - |a|;
      assert s == s[..k] + a;
      assert AllWhiteSpace(a[0..]);
    }
  }

  /** A string that neither starts nor ends with white space is its own trim. */
  lemma TrimKeepsTrimmed(s: string)
    requires s == [] || (!IsWhiteSpace(s[0]) && !IsWhiteSpace(s[|s| - 1]))
    ensures Trim(s) == s
  {
    assert TrimStart(s) == s;
    assert TrimEnd(s) == s;
  }
}

=== FILE: wrappers.dfy ===
/** Optional values, used for fields a JavaScript object may or may not carry. */
module Wrappers {

  datatype Option<+T> = None | Some(value: T) {

    /** The carried value, or `default` when there is none. */
    function GetOr(default: T): T {
      match this
      case Some(v) => v
      case None => default
    }
  }
}
